=== FILE: README.md ===
# Healthcare dashboard: table preparation and dashboard selection

This project models the data handling of a small healthcare reporting tool.
Patient profiles and satisfaction feedback are joined on `patient_id`, and the
missing satisfaction scores are filled with their mean. A dashboard then
offers a country choice and shows headline figures and value counts for the
chosen rows.

The preparation run appears three times in the repository:
`merged_access_data.py`, `prepare_data.py` and the top of `modern_dashboard.py`.
It is modelled once, as `Pipeline.Prepare`, with these steps:

1. drop the document store's surrogate column `_id` from the feedback if it is there;
2. cast `patient_id` to a 64-bit integer in both tables;
3. take the inner join on `patient_id`, suffixing the other columns both sides
   share with `_profile` and `_feedback`;
4. fill the missing `satisfaction_score` cells with the mean of the present ones.

The copies differ in one place. `prepare_data.py` checks that the join has a
bare `satisfaction_score` column before filling. The other two copies select
that column unconditionally, so they fail when it is missing, for example
after both inputs carried a score. The `Guard` parameter (`Checked` /
`Unchecked`) captures this difference.

Data model (`tables.dfy`):

- A row maps column names to cells; a cell is a value or missing (`None`).
- A value is an integer, a real or a text.
- A table is a list of column names plus a sequence of rows. `Valid` means
  the column names are distinct and every row has exactly those columns.
- Failures are values of `Result`, one `Error` per way a run can stop:
  a missing column, an identifier the cast rejects, join suffixes that repeat
  a name, a mean over text, and countries that cannot be sorted.

Modules:

- `Seqs`: duplicates, counting, first-occurrence de-duplication, subsequences.
- `Tables`: the data model.
- `Normalize`: dropping `_id`.
- `KeyCoercion`: the integer cast.
- `Join`: the suffixing inner join.
- `Impute`: the mean and the fill.
- `Pipeline`: the run as a function, and the scripts statement by statement.
  The scripts use a `Frame` class whose column assignments update the frame
  in place.
- `SampleRuns`: two small inputs worked through the whole run.
- `Ordering`: text order and ordering by count.
- `Dashboard`: the country choices, the filter, the figures and the value counts.

Two behaviours of the code are worth stating outright. The code drops
`_id` only from the feedback, so an `_id` column in the profiles reaches the
merged table (`Pipeline.SurrogateFollowsProfiles`). When no score is
present, `mean()` is undefined and `fillna` leaves every cell missing
(`Impute.AllMissingStaysMissing`).

The table below cites each preparation step in `merged_access_data.py`.
The same steps appear in the other two copies at these lines:

- dropping `_id`: prepare_data.py:11-12 and modern_dashboard.py:22-23;
- the key cast: prepare_data.py:14-15 and modern_dashboard.py:26-27;
- the join: prepare_data.py:18 and modern_dashboard.py:30;
- the fill: prepare_data.py:20 and modern_dashboard.py:33.

`Pipeline.MergeAccessData` also models the dashboard's copy, modern_dashboard.py:22-33.
The issue chart at modern_dashboard.py:110 is a second use of `Dashboard.TopCounts`.

## Model

| member | source | states |
|---|---|---|
| Tables.PresentMembers | merged_access_data.py:26 | a value is among the non-missing values exactly when some cell holds it |
| Tables.PresentEmpty | merged_access_data.py:26 | no value is present exactly when every cell is missing |
| Tables.NUnique | modern_dashboard.py:65 | the number of distinct present values is at most the number of cells |
| Seqs.Unique | modern_dashboard.py:55 | `unique()`: no repeats, and every element of the input is in the output and the other way round |
| Normalize.Without | merged_access_data.py:16 | the remaining column names are exactly the others, in their original order, still distinct |
| Normalize.DropIfPresent | merged_access_data.py:15-16 | `_id` is gone afterwards; the table is unchanged when `_id` was absent; other columns keep their order and cells; the row count is kept; a well-formed table stays well formed |
| KeyCoercion.Truncate | merged_access_data.py:19 | a real identifier is cast by dropping its fraction: the result lies within one of the value, on the side of zero |
| KeyCoercion.ParseInt | merged_access_data.py:19 | text casts exactly when it is decimal digits with an optional sign; unsigned and `+` texts read as their digits' value, `-` texts as its negation; anything else fails |
| KeyCoercion.ParseDecimal | merged_access_data.py:19 | the text parse reads the decimal text of every integer back as that integer |
| KeyCoercion.CastCell | merged_access_data.py:19 | a missing identifier fails; an integer casts to itself, a real to its truncation and a text to its parsed value, each exactly when that value fits in 64 bits; text that does not parse fails; a failure names the rejected cell |
| KeyCoercion.CastRows | merged_access_data.py:19-20 | succeeds exactly when every key cell casts; then each row is its input with the key replaced by the cast value; otherwise it fails naming some row's key cell |
| KeyCoercion.CoerceKey | merged_access_data.py:19-20 | fails on a missing `patient_id` column or a key that does not cast, and succeeds otherwise; columns and row count are kept; each key becomes its integer and no other cell changes |
| KeyCoercion.CoerceKeyValid | merged_access_data.py:19-20 | the cast keeps a table well formed |
| KeyCoercion.CoerceKeyIdempotent | merged_access_data.py:19-20 | casting a cast table changes nothing |
| KeyCoercion.IntegerKeysUnchanged | merged_access_data.py:19-20 | keys that are already 64-bit integers are left as they are |
| Join.Plan | merged_access_data.py:23 | the output schema: every profile column in order, then every feedback column except `patient_id`; a column other than `patient_id` keeps its bare name exactly when the other side lacks it |
| Join.JoinRow | merged_access_data.py:23 | an output row has exactly the output columns, each cell taken from the side and column its output column names |
| Join.Merge | merged_access_data.py:23 | fails on a missing key column or on suffixed names that repeat, and succeeds otherwise; the columns are the planned names and the rows are the matching pairs |
| Join.PlanMembers | merged_access_data.py:23 | an output column is either a profile column under its profile-side name or a non-key feedback column under its feedback-side name, and each of these is output |
| Join.SuffixPolicy | merged_access_data.py:23 | a non-key name on both sides is output as `<name>_profile` and `<name>_feedback` and never bare; other names pass through unrenamed; `patient_id` is output once, from the profiles |
| Join.ShortNameFromInput | merged_access_data.py:23 | an output name shorter than both suffixes was not renamed, so it is a column of one of the inputs |
| Join.MergeValid | merged_access_data.py:23 | the merged table is well formed |
| Join.JoinRowKey | merged_access_data.py:23 | an output row carries its profile row's key |
| Join.MembersOfMatches | merged_access_data.py:23 | a row is output for one profile row exactly when it joins it with a feedback row of the same key |
| Join.MembersOfJoin | merged_access_data.py:23 | every output row comes from a profile row and a feedback row with equal keys |
| Join.PairsInJoin | merged_access_data.py:23 | every pair of rows with equal keys gives an output row |
| Join.JoinMembership | merged_access_data.py:23 | a row is in the join exactly when it joins a profile row and a feedback row with the same key; its key is among both inputs' keys |
| Join.MatchesCount | merged_access_data.py:23 | one profile row yields, for its own key, as many rows as the feedback has with that key, and none for other keys |
| Join.JoinRowsCount | merged_access_data.py:23 | for every key, the output rows with it number the profile rows with it times the feedback rows with it |
| Join.JoinCardinality | merged_access_data.py:23 | the same product law for the merged table |
| Join.DisjointKeysEmptyJoin | merged_access_data.py:23 | inputs sharing no key give an empty table, not an error |
| Impute.Average | merged_access_data.py:26 | the mean of a non-empty list, added once per value, gives their sum |
| Impute.Mean | merged_access_data.py:26 | fails exactly when a present score is text; gives no mean exactly when every score is missing; otherwise the mean of the present scores |
| Impute.Impute | merged_access_data.py:26 | fails on a missing score column or a failed mean; keeps the columns, the row count, every other column and every present score; every missing score gets the mean; with no mean nothing changes; well-formedness is kept |
| Impute.NoMissingAfterImpute | merged_access_data.py:26 | with at least one score present, no score is missing afterwards |
| Impute.AllMissingStaysMissing | merged_access_data.py:26 | with every score missing, the table is unchanged and the column stays all missing |
| Impute.ImputeIdempotent | merged_access_data.py:26 | filling a filled table changes nothing |
| Impute.MeanWithinBounds | merged_access_data.py:26 | the filled value lies within any bounds that hold every present score |
| Impute.FillSum | merged_access_data.py:26 | after filling with `m`, the column adds up to the old sum plus `m` once per gap |
| Impute.ImputeKeepsMean | merged_access_data.py:26 | the filled column has the same mean as before |
| Pipeline.Merged | merged_access_data.py:15-23 | the join of the cast inputs fails only on a missing key column, a key that does not cast or repeated suffixed names; a successful join has `patient_id`, which both inputs had |
| Pipeline.Prepare | merged_access_data.py:15-26 | a failed join ends the run with its error; a run that succeeds has the join's columns and row count; after a successful join a run fails only on text among the scores or, unchecked, on a missing score column (see also GuardDifference, RunJoinsOnKey, RunFillsScores, CastFailureAborts) |
| Pipeline.CastFailureAborts | merged_access_data.py:19-23 | a key column that does not cast makes the run fail before the join, with the profiles' error first |
| Pipeline.GuardDifference | prepare_data.py:19-20 | without a bare score column the checked copy returns the join unfilled and the unchecked copies fail; otherwise the copies agree |
| Pipeline.RunIsFillOfJoin | prepare_data.py:19-20 | past the join, a run is the fill of the join unless it is checked and the column is absent |
| Pipeline.RunJoinsOnKey | merged_access_data.py:15-23 | a successful run's table is well formed, has `patient_id` once, satisfies the product law over the cast inputs, and every key is in both cast inputs |
| Pipeline.FillKeepsKeys | merged_access_data.py:23-26 | the score fill keeps the join's columns and its key cells, and keeps it well formed |
| Pipeline.JoinedKeysShared | merged_access_data.py:23 | every key of the join is a key of both inputs |
| Pipeline.SurrogateFollowsProfiles | merged_access_data.py:15-16 | the run's table has an `_id` column exactly when the profiles have one |
| Pipeline.SurrogateFromProfiles | merged_access_data.py:15-23 | the join of the cast inputs has an `_id` column exactly when the profiles have one |
| Pipeline.RunFillsScores | merged_access_data.py:26 | a run that reached the fill keeps the join's present scores; if any was present none is missing and all gaps hold one same value |
| Pipeline.Frame.CastKey | merged_access_data.py:19 | assigning the cast key column updates the frame to the cast table, or reports the error and leaves the frame alone |
| Pipeline.Frame.FillScore | merged_access_data.py:26 | assigning the filled score column updates the frame to the filled table, or reports the error and leaves the frame alone |
| Pipeline.MergeAccessData | merged_access_data.py:15-26 | the merge script, statement by statement, returns the unchecked run |
| Pipeline.PrepareData | prepare_data.py:11-20 | the preparation script, statement by statement, returns the checked run, which is the bare join when the score column is absent |
| SampleRuns.CollidingMerge | merged_access_data.py:23 | a score on both sides gives the columns `patient_id`, `satisfaction_score_profile`, `satisfaction_score_feedback` |
| SampleRuns.ScoreCollisionExample | prepare_data.py:19 | on that input the checked copy stores the join and the unchecked copies fail on the missing column |
| SampleRuns.TwoPatientJoin | merged_access_data.py:23 | two profiles and three feedback records join to two rows in profile order; the unmatched patient is dropped |
| SampleRuns.TwoPatientFill | merged_access_data.py:26 | the one missing score is filled with 4, the mean of the one present score |
| SampleRuns.TwoPatientRun | merged_access_data.py:15-26 | both copies of the run produce that filled table |
| Ordering.StrLessIrreflexive | modern_dashboard.py:55 | no text sorts before itself |
| Ordering.StrLessTransitive | modern_dashboard.py:55 | text order is transitive |
| Ordering.StrLessTotal | modern_dashboard.py:55 | any two different texts are ordered one way or the other |
| Ordering.StrLessAsymmetric | modern_dashboard.py:55 | two texts are never ordered both ways |
| Ordering.Insert | modern_dashboard.py:55 | inserting into a strictly ascending list keeps it strictly ascending, adding exactly the new element |
| Ordering.SortStrings | modern_dashboard.py:55 | `sorted`: strictly ascending, with the same elements as the input |
| Ordering.StrictlySortedUnique | modern_dashboard.py:55 | two strictly ascending lists with the same elements are equal |
| Ordering.InsertByCount | modern_dashboard.py:80 | inserting into a list ordered by falling count keeps that order, adding exactly the new entry |
| Ordering.InsertByCountDistinct | modern_dashboard.py:80 | inserting a new entry keeps the entries distinct |
| Ordering.SortByCount | modern_dashboard.py:80 | the entries reordered by falling count: same length, same entries, distinct when the input is |
| Dashboard.SortedNames | modern_dashboard.py:55 | sorting the distinct texts gives a strictly ascending list holding exactly the texts of the cells |
| Dashboard.CountryList | modern_dashboard.py:55 | fails on a missing `country_profile` column or a country cell that is not text; otherwise `All` followed by each country once, strictly ascending |
| Dashboard.CountryListCanonical | modern_dashboard.py:55 | any strictly ascending listing of the countries is the choice list after `All` |
| Dashboard.Where | modern_dashboard.py:59 | the rows whose cell equals the value, in order: a subsequence, with exactly those rows, as many as the column has such cells |
| Dashboard.Select | modern_dashboard.py:58-61 | `All` gives the table unchanged; a country gives exactly its rows, in order, with the same columns, as many as the country occurs |
| Dashboard.OneValueOneDistinct | modern_dashboard.py:66 | cells holding only one value have at most one distinct value |
| Dashboard.CountriesFigureAtMostOne | modern_dashboard.py:66 | with one country chosen, the Countries figure is at most 1 |
| Dashboard.Tallies | modern_dashboard.py:132 | each distinct present value once, with its exact positive count, and every present value is listed |
| Dashboard.Counts | modern_dashboard.py:100 | `value_counts()`: the tallies ordered by falling count |
| Dashboard.LeftOutIsBehind | modern_dashboard.py:80 | a value not among the first `n` entries of a falling list comes after them, with no larger count |
| Dashboard.HeadLeavesOut | modern_dashboard.py:80 | a present value missing from the first `n` most frequent values implies there are more than `n` values and each of the first `n` is at least as frequent |
| Dashboard.TopCounts | modern_dashboard.py:80 | `value_counts().head(n)`: at most `n` distinct values with exact counts, falling; a value left out is no more frequent than any shown and is left out only when all `n` places are taken |
| Dashboard.CountryBarMatchesFilter | modern_dashboard.py:80 | a country's bar counts exactly the rows that choosing that country selects |
| Dashboard.FirstMissing | modern_dashboard.py:65-67 | no column is reported exactly when all are present; a reported column is the first needed column, in page order, that is absent |
| Dashboard.Show | modern_dashboard.py:65-139 | the page's figures never exceed the shown row count; at most 10 country and 6 issue bars, falling by count; genders falling by count; each device type with its exact count; the preview is the first 100 rows, or all of them when fewer |
| Dashboard.Build | modern_dashboard.py:65-132 | fails on the first missing column the figures need, then on text among the scores, then on the first missing chart column; otherwise the page for the rows |
| Dashboard.Render | modern_dashboard.py:55-61 | the country list fails first; otherwise the page is built from the rows selected for the choice |
| Dashboard.ShowFigures | modern_dashboard.py:65-68 | Patients, Countries and Accessibility Types are distinct counts over the shown rows, with no more patients than rows; the average is undefined exactly when every shown score is missing |
| Dashboard.ShowCharts | modern_dashboard.py:80-139 | at most 10 country bars and 6 issue bars, each from the shown rows; all genders and device types with their counts; a preview of at most 100 leading rows |
| Dashboard.RenderOneCountry | modern_dashboard.py:66 | a rendered page for one chosen country shows at most one country |
| Dashboard.Page | modern_dashboard.py:22-61 | a failed preparation fails the page with the same error; otherwise the page is the rendering of the prepared table for the choice; every shown row is a row of the prepared table |

## Left out

- Storage and network I/O is outside the model. This covers SQLite through `read_sql` and `to_sql`, MongoDB through `find`, the CSV reads and `print`. Inputs are parameters, and results are return values.
- Dashboard.Page assumes that storing the merged table and reading it back gives the same table. Column types the database changes on the way are not modelled.
- The profiles table that prepare_data.py:7 stores before the cast is pure I/O and is not modelled.
- All Streamlit page layout, widgets and metric formatting (`:,`, `:.2f`) is left out. So are matplotlib and seaborn drawing, palettes and axis limits. The chosen country is a parameter.
- The mean-score bar chart per accessibility type (modern_dashboard.py:89) is not modelled: it is seaborn's own aggregation, computed only for drawing.
- The age histogram (modern_dashboard.py:125) is not modelled: its binning is floating-point plotting.
- The `sort_values()` at modern_dashboard.py:80 only reorders the ten bars for drawing, so it is not modelled.
- Scores are `real`, not binary floating point. Rounding in the mean is not modelled.
- Dashboard.Counts: among equal counts, values keep their first-occurrence order. The model makes no claim about the library's order among ties.
- Dashboard.TopCounts: likewise, with equal counts at the cut, the choice of which values are shown is not claimed to match the library's.
- Dashboard.CountryList: succeeds only when every country cell is present text. Python's `sorted` also succeeds when there is a single distinct value or the values are all numbers. The model reports those cases as failures.
- KeyCoercion.ParseInt: the text forms Python's `int` also accepts are rejected. These are surrounding whitespace, digit-group underscores and non-ASCII digits.
- KeyCoercion.CastCell: reals outside the 64-bit range fail here; the library's float cast rejects only non-finite values and does not check the range, so such an identifier becomes some unspecified 64-bit integer there.
- KeyCoercion.CastCell: infinite and NaN reals do not occur in the model (missing values are `None`). Boolean identifiers are not modelled.
- Tables.NUnique: `Int(1)` and `Real(1.0)` count as two values, where the library counts one. Within a column the model relies on the values having one kind.
- Valid tables have distinct column names. Inputs with repeated column names are not modelled.
- Join.Merge: rows come in profile order, each followed by its matching feedback rows in feedback order. The model fails on any repeated output name. The library raises only when one side's own renamed columns repeat; when a renamed column of one side equals a column name of the other, it returns a table with two equal column names. Tables with repeated names are not modelled.
- Join.Merge: `patient_id` is always placed at its position in the profiles. When the profiles have no rows, the library keeps the feedback's key column instead, so the key comes after the other profile columns; that column order is not modelled (the rows, none, agree).
- Pipeline.Frame: in-place updates are modelled on one frame at a time. Aliasing between frames and views is not modelled.
- Dashboard.Build: failures the plotting library raises beyond a missing column are not modelled, for example text in the age column.

=== FILE: coercion.dfy ===
/** The cast of the `patient_id` column to a 64-bit signed integer, applied
    to the profiles table and to the feedback table before they are joined. */
module KeyCoercion {
  import opened Tables

  const Int64Min: int := -0x8000_0000_0000_0000
  const Int64Max: int := 0x7FFF_FFFF_FFFF_FFFF

  predicate InInt64(n: int)
  {
    Int64Min <= n <= Int64Max
  }

  predicate IsDigit(ch: char)
  {
    '0' <= ch <= '9'
  }

  predicate AllDigits(s: string)
  {
    forall i :: 0 <= i < |s| ==> IsDigit(s[i])
  }

  /** The number a string of decimal digits denotes. */
  function DigitsValue(s: string): nat
    requires AllDigits(s)
  {
    if s == [] then 0
    else DigitsValue(s[..|s| - 1]) * 10 + (s[|s| - 1] - '0') as nat
  }

  /** Text to integer as the integer cast reads it: an optional sign followed
      by at least one decimal digit. */
  function ParseInt(s: string): (r: Option<int>)
    ensures s != [] && AllDigits(s) ==> r == Some(DigitsValue(s))
    ensures |s| > 1 && s[0] == '+' && AllDigits(s[1..]) ==> r == Some(DigitsValue(s[1..]))
    ensures |s| > 1 && s[0] == '-' && AllDigits(s[1..]) ==> r == Some(0 - DigitsValue(s[1..]) as int)
    ensures r.Some? ==>
      (s != [] && AllDigits(s)) || (|s| > 1 && (s[0] == '+' || s[0] == '-') && AllDigits(s[1..]))
  {
    var negative := |s| > 0 && s[0] == '-';
    var digits := if |s| > 0 && (s[0] == '-' || s[0] == '+') then s[1..] else s;
    if digits != [] && AllDigits(digits) then
      Some(if negative then 0 - DigitsValue(digits) as int else DigitsValue(digits))
    else None
  }

  /** Decimal digits of a natural number, most significant first. */
  function DigitsOf(n: nat): (s: string)
    ensures s != [] && AllDigits(s)
  {
    var d := ['0' + (n % 10) as char];
    if n < 10 then d else DigitsOf(n / 10) + d
  }

  /** The text an integer is written as: a leading minus for negatives. */
  function Decimal(n: int): string
  {
    if n < 0 then "-" + DigitsOf(-n) else DigitsOf(n)
  }

  lemma {:induction false} DigitsRoundTrip(n: nat)
    ensures DigitsValue(DigitsOf(n)) == n
  {
    var s := DigitsOf(n);
    if n >= 10 {
      DigitsRoundTrip(n / 10);
      assert s[..|s| - 1] == DigitsOf(n / 10);
    }
  }

  /** Reading back the text of any integer yields that integer. */
  lemma ParseDecimal(n: int)
    ensures ParseInt(Decimal(n)) == Some(n)
  {
    DigitsRoundTrip(if n < 0 then -n else n);
    if n < 0 {
      assert Decimal(n)[1..] == DigitsOf(-n);
    } else {
      assert DigitsOf(n)[0] != '-' && DigitsOf(n)[0] != '+';
    }
  }

  /** Conversion of a real to an integer, dropping the fractional part
      (rounding toward zero). */
  function Truncate(x: real): (n: int)
    ensures 0.0 <= x ==> 0 <= n && n as real <= x < n as real + 1.0
    ensures x < 0.0 ==> n <= 0 && n as real - 1.0 < x <= n as real
  {
    if x >= 0.0 then x.Floor else -((-x).Floor)
  }

  /** The integer cast of one identifier cell: a missing cell, unparsable
      text or an integer outside the 64-bit range makes the cast fail. A
      real is truncated and, in this model, also fails outside that range. */
  function CastCell(cell: Cell): (r: Result<int>)
    ensures r.Success? ==> InInt64(r.value)
    ensures r.Failure? ==> r.error == KeyNotInteger(cell)
    ensures cell == None ==> r.Failure?
    ensures cell.Some? && cell.value.Int? ==> (r.Success? <==> InInt64(cell.value.i))
    ensures r.Success? && cell.value.Int? ==> r.value == cell.value.i
    ensures cell.Some? && cell.value.Real? ==>
      && (r.Success? <==> InInt64(Truncate(cell.value.r)))
      && (r.Success? ==> r.value == Truncate(cell.value.r))
    ensures cell.Some? && cell.value.Str? ==>
      && (r.Success? <==> ParseInt(cell.value.s).Some? && InInt64(ParseInt(cell.value.s).value))
      && (r.Success? ==> r.value == ParseInt(cell.value.s).value)
  {
    var n :=
      match cell
      case None => None
      case Some(Int(i)) => Some(i)
      case Some(Real(x)) => Some(Truncate(x))
      case Some(Str(s)) => ParseInt(s);
    if n.Some? && InInt64(n.value) then Success(n.value) else Failure(KeyNotInteger(cell))
  }

  /** Every row with its key cell replaced by the cast value, or the first
      cell the cast rejects. */
  function CastRows(rows: seq<Row>): (r: Result<seq<Row>>)
    ensures r.Success? <==> forall i :: 0 <= i < |rows| ==> CastCell(Get(rows[i], Key)).Success?
    ensures r.Success? ==> |r.value| == |rows|
    ensures r.Success? ==> forall i :: 0 <= i < |rows| ==>
      r.value[i] == rows[i][Key := Some(Int(CastCell(Get(rows[i], Key)).value))]
    ensures r.Failure? ==> exists i :: 0 <= i < |rows| && r == Failure(KeyNotInteger(Get(rows[i], Key)))
  {
    if rows == [] then Success([])
    else
      var n :- CastCell(Get(rows[0], Key));
      var rest :- CastRows(rows[1..]);
      Success([rows[0][Key := Some(Int(n))]] + rest)
  }

  /** `df['patient_id'] = df['patient_id'].astype(int)`: fails when the
      column is absent or some identifier does not cast; otherwise every key
      becomes its integer and no other cell changes. */
  function CoerceKey(t: Table): (r: Result<Table>)
    ensures r.Success? <==>
      Key in t.columns && forall i :: 0 <= i < |t.rows| ==> CastCell(Get(t.rows[i], Key)).Success?
    ensures Key !in t.columns ==> r == Failure(MissingColumn(Key))
    ensures Key in t.columns && r.Failure? ==>
      exists i :: 0 <= i < |t.rows| && r.error == KeyNotInteger(Get(t.rows[i], Key))
    ensures r.Success? ==> r.value.columns == t.columns && |r.value.rows| == |t.rows|
    ensures r.Success? ==> forall i :: 0 <= i < |t.rows| ==>
      && r.value.rows[i].Keys == t.rows[i].Keys + {Key}
      && Get(r.value.rows[i], Key) == Some(Int(CastCell(Get(t.rows[i], Key)).value))
      && forall x :: x != Key ==> Get(r.value.rows[i], x) == Get(t.rows[i], x)
  {
    if Key !in t.columns then Failure(MissingColumn(Key))
    else
      var rows :- CastRows(t.rows);
      Success(Table(t.columns, rows))
  }

  /** The cast keeps a table well formed. */
  lemma CoerceKeyValid(t: Table)
    requires Valid(t) && CoerceKey(t).Success?
    ensures Valid(CoerceKey(t).value)
  {
    var out := CoerceKey(t).value;
    forall r | r in out.rows ensures r.Keys == ColumnSet(out.columns) {
      var i :| 0 <= i < |out.rows| && out.rows[i] == r;
      assert t.rows[i] in t.rows;
    }
  }

  /** Casting an already cast table changes nothing. */
  lemma CoerceKeyIdempotent(t: Table)
    requires CoerceKey(t).Success?
    ensures CoerceKey(CoerceKey(t).value) == CoerceKey(t)
  {
    var u := CoerceKey(t).value;
    forall i | 0 <= i < |u.rows|
      ensures CastCell(Get(u.rows[i], Key)).Success?
      ensures u.rows[i][Key := Some(Int(CastCell(Get(u.rows[i], Key)).value))] == u.rows[i]
    {
      assert Key in u.rows[i];
    }
    var v := CoerceKey(u).value;
    assert v.rows == u.rows;
  }

  /** Casting keys that are already 64-bit integers changes nothing. */
  lemma IntegerKeysUnchanged(t: Table)
    requires Key in t.columns
    requires forall i :: 0 <= i < |t.rows| ==>
      Get(t.rows[i], Key).Some? && Get(t.rows[i], Key).value.Int? && InInt64(Get(t.rows[i], Key).value.i)
    ensures CoerceKey(t) == Success(t)
  {
    var c := CastRows(t.rows);
    assert c.Success?;
    forall i | 0 <= i < |t.rows| ensures c.value[i] == t.rows[i] {
      assert t.rows[i][Key := t.rows[i][Key]] == t.rows[i];
    }
    assert c.value == t.rows;
  }
}

=== FILE: dashboard.dfy ===
/** What the dashboard computes from the joined table before drawing it: the
    country choices, the rows for the chosen country, the headline figures
    and the counts behind the charts. */
module Dashboard {
  import opened Seqs
  import opened Tables
  import opened Ordering
  import Impute
  import Pipeline

  /** The choice that shows every country. */
  const All: string := "All"
  /** The country column as the join names it (both sources carry `country`). */
  const Country: ColName := "country_profile"
  const AccessType: ColName := "accessibility_type"
  const Gender: ColName := "gender"
  const Issue: ColName := "issue_type"
  const Age: ColName := "age"
  const Device: ColName := "device_type"

  /** Bars in the country chart and in the issue chart. */
  const TopCountryBars: nat := 10
  const TopIssueBars: nat := 6
  /** Rows in the table preview. */
  const PreviewRows: nat := 100

  // ---------------------------------------------------------------------
  // Country choices

  predicate IsText(c: Cell)
  {
    c.Some? && c.value.Str?
  }

  /** The strings held by cells that all hold strings. */
  function Texts(cells: seq<Cell>): (r: seq<string>)
    requires forall i :: 0 <= i < |cells| ==> IsText(cells[i])
    ensures |r| == |cells|
    ensures forall i :: 0 <= i < |cells| ==> cells[i] == Some(Str(r[i]))
  {
    seq(|cells|, i requires 0 <= i < |cells| => if IsText(cells[i]) then cells[i].value.s else "")
  }

  /** `sorted(cells.unique())` over cells that all hold text: each string
      once, ascending. */
  function SortedNames(cells: seq<Cell>): (r: seq<string>)
    requires forall i :: 0 <= i < |cells| ==> IsText(cells[i])
    ensures StrictlySorted(r)
    ensures forall s :: s in r <==> Some(Str(s)) in cells
  {
    var names := Texts(cells);
    var sorted := SortStrings(Unique(names));
    forall s ensures s in sorted <==> Some(Str(s)) in cells {
      if s in sorted {
        var k :| 0 <= k < |Unique(names)| && Unique(names)[k] == s;
        var i :| 0 <= i < |names| && names[i] == s;
        assert cells[i] == Some(Str(s));
      }
      if Some(Str(s)) in cells {
        var i :| 0 <= i < |cells| && cells[i] == Some(Str(s));
        assert names[i] == s;
      }
    }
    sorted
  }

  /** `['All'] + sorted(country_profile.unique())`. Sorting needs every
      country cell to be present text; otherwise the comparison fails. The
      result is `All` followed by each distinct country once, ascending. */
  function CountryList(t: Table): (r: Result<seq<string>>)
    ensures Country !in t.columns ==> r == Failure(MissingColumn(Country))
    ensures Country in t.columns ==>
      (r.Success? <==> forall i :: 0 <= i < |t.rows| ==> IsText(Get(t.rows[i], Country)))
    ensures r.Failure? && Country in t.columns ==> r.error == UnorderableCountries
    ensures r.Success? ==> |r.value| >= 1 && r.value[0] == All
    ensures r.Success? ==> StrictlySorted(r.value[1..])
    ensures r.Success? ==> forall s :: s in r.value[1..] <==> Some(Str(s)) in Column(t.rows, Country)
  {
    if Country !in t.columns then Failure(MissingColumn(Country))
    else
      var cells := Column(t.rows, Country);
      if !(forall i :: 0 <= i < |cells| ==> IsText(cells[i])) then Failure(UnorderableCountries)
      else
        var sorted := SortedNames(cells);
        assert ([All] + sorted)[1..] == sorted;
        Success([All] + sorted)
  }

  /** The country choices are the only ascending duplicate-free listing of
      the countries: any other such listing is the same list. */
  lemma CountryListCanonical(t: Table, listing: seq<string>)
    requires CountryList(t).Success?
    requires StrictlySorted(listing)
    requires forall s :: s in listing <==> Some(Str(s)) in Column(t.rows, Country)
    ensures CountryList(t).value == [All] + listing
  {
    var r := CountryList(t).value;
    StrictlySortedUnique(r[1..], listing);
    assert r == [r[0]] + r[1..];
  }

  // ---------------------------------------------------------------------
  // Country filter

  /** The rows whose cell in column `c` is `v`, in their original order. */
  function Where(rows: seq<Row>, c: ColName, v: Value): (r: seq<Row>)
    ensures IsSubsequence(r, rows)
    ensures forall row :: row in r <==> row in rows && Get(row, c) == Some(v)
    ensures |r| == Count(Column(rows, c), Some(v))
  {
    if rows == [] then []
    else
      var rest := Where(rows[1..], c, v);
      assert Column(rows, c) == [Get(rows[0], c)] + Column(rows[1..], c);
      if Get(rows[0], c) == Some(v) then
        assert ([rows[0]] + rest)[1..] == rest;
        [rows[0]] + rest
      else
        rest
  }

  /** `data` for a choice: the whole table for `All`, otherwise the rows whose
      country is the chosen one. Columns never change. */
  function Select(t: Table, choice: string): (r: Table)
    ensures choice == All ==> r == t
    ensures r.columns == t.columns
    ensures IsSubsequence(r.rows, t.rows)
    ensures choice != All ==> forall row :: row in r.rows <==> row in t.rows && Get(row, Country) == Some(Str(choice))
    ensures choice != All ==> |r.rows| == Count(Column(t.rows, Country), Some(Str(choice)))
    ensures Valid(t) ==> Valid(r)
  {
    if choice == All then
      SubsequenceReflexive(t.rows);
      t
    else
      Table(t.columns, Where(t.rows, Country, Str(choice)))
  }

  // ---------------------------------------------------------------------
  // Headline figures

  /** `nunique` of every present value equal to `v`: at most one. */
  lemma {:induction false} OneValueOneDistinct(cells: seq<Cell>, v: Value)
    requires forall i :: 0 <= i < |cells| && cells[i].Some? ==> cells[i].value == v
    ensures NUnique(cells) <= 1
  {
    var vs := Present(cells);
    var u := Unique(vs);
    forall j | 0 <= j < |u| ensures u[j] == v {
      PresentMembers(cells, u[j]);
    }
    CountAll(u, v);
    CountUnique(u, v);
  }

  /** With one country chosen, the Countries figure is at most 1 (0 when no
      row has that country). */
  lemma CountriesFigureAtMostOne(t: Table, choice: string)
    requires choice != All
    ensures NUnique(Column(Select(t, choice).rows, Country)) <= 1
  {
    var rows := Select(t, choice).rows;
    var cells := Column(rows, Country);
    forall i | 0 <= i < |cells| && cells[i].Some? ensures cells[i].value == Str(choice) {
      assert rows[i] in rows;
    }
    OneValueOneDistinct(cells, Str(choice));
  }

  // ---------------------------------------------------------------------
  // Value counts

  /** Each distinct present value with the number of cells holding it, in
      order of first occurrence (the bars of a count plot). */
  function Tallies(cells: seq<Cell>): (r: seq<Tally>)
    ensures |r| == NUnique(cells)
    ensures forall i :: 0 <= i < |r| ==> r[i].1 == Count(cells, Some(r[i].0)) && r[i].1 > 0
    ensures forall i, j :: 0 <= i < j < |r| ==> r[i].0 != r[j].0
    ensures forall k :: 0 <= k < |cells| && cells[k].Some? ==> exists j :: 0 <= j < |r| && r[j].0 == cells[k].value
  {
    var u := Unique(Present(cells));
    var r := seq(|u|, i requires 0 <= i < |u| => (u[i], Count(cells, Some(u[i]))));
    forall i | 0 <= i < |r| ensures r[i].1 > 0 {
      PresentMembers(cells, u[i]);
      var k :| 0 <= k < |cells| && cells[k] == Some(u[i]);
      CountBound(cells, Some(u[i]));
    }
    forall k | 0 <= k < |cells| && cells[k].Some? ensures exists j :: 0 <= j < |r| && r[j].0 == cells[k].value {
      PresentMembers(cells, cells[k].value);
      var p :| 0 <= p < |Present(cells)| && Present(cells)[p] == cells[k].value;
      var j :| 0 <= j < |u| && u[j] == cells[k].value;
      assert r[j].0 == cells[k].value;
    }
    r
  }

  /** `value_counts()`: every distinct present value once, with its number of
      occurrences, from the most frequent down. */
  function Counts(cells: seq<Cell>): (r: seq<Tally>)
    ensures Descending(r)
    ensures |r| == NUnique(cells)
    ensures forall i :: 0 <= i < |r| ==> r[i].1 == Count(cells, Some(r[i].0)) && r[i].1 > 0
    ensures forall i, j :: 0 <= i < j < |r| ==> r[i].0 != r[j].0
    ensures forall k :: 0 <= k < |cells| && cells[k].Some? ==> exists j :: 0 <= j < |r| && r[j].0 == cells[k].value
  {
    var tallies := Tallies(cells);
    assert NoDuplicates(tallies) by {
      forall i, j | 0 <= i < j < |tallies| ensures tallies[i] != tallies[j] {
        assert tallies[i].0 != tallies[j].0;
      }
    }
    var r := SortByCount(tallies);
    forall i | 0 <= i < |r| ensures r[i].1 == Count(cells, Some(r[i].0)) && r[i].1 > 0 {
      assert r[i] in tallies;
    }
    forall i, j | 0 <= i < j < |r| ensures r[i].0 != r[j].0 {
      assert r[i] in tallies && r[j] in tallies;
    }
    forall k | 0 <= k < |cells| && cells[k].Some? ensures exists j :: 0 <= j < |r| && r[j].0 == cells[k].value {
      var p :| 0 <= p < |tallies| && tallies[p].0 == cells[k].value;
      assert tallies[p] in r;
    }
    r
  }

  /** A value at position `j` of a descending list that is not among its
      first `n` entries sits at or after `n`, behind entries at least as
      frequent. */
  lemma LeftOutIsBehind(all: seq<Tally>, n: nat, j: nat)
    requires Descending(all) && j < |all|
    requires forall i :: 0 <= i < |all| && i < n ==> all[i].0 != all[j].0
    ensures n <= j
    ensures forall i :: 0 <= i < n ==> all[i].1 >= all[j].1
  {
    var v := all[j].0;
    assert forall i :: 0 <= i < |all| && i < n ==> all[i].0 != v;
  }

  /** `value_counts().head(n)`: the `n` most frequent values (all of them when
      there are fewer), each with its exact count, from the most frequent
      down; a value left out is no more frequent than any value shown, and
      is left out only when all `n` places are taken. */
  function TopCounts(cells: seq<Cell>, n: nat): (r: seq<Tally>)
    ensures |r| == if n < NUnique(cells) then n else NUnique(cells)
    ensures Descending(r)
    ensures forall i :: 0 <= i < |r| ==> r[i].1 == Count(cells, Some(r[i].0)) && r[i].1 > 0
    ensures forall i, j :: 0 <= i < j < |r| ==> r[i].0 != r[j].0
    ensures forall k :: 0 <= k < |cells| && cells[k].Some? && (forall i :: 0 <= i < |r| ==> r[i].0 != cells[k].value) ==>
      |r| == n && forall i :: 0 <= i < |r| ==> r[i].1 >= Count(cells, cells[k])
  {
    var all := Counts(cells);
    var r := if n < |all| then all[..n] else all;
    assert forall i :: 0 <= i < |r| ==> r[i] == all[i];
    forall k | 0 <= k < |cells| && cells[k].Some? && (forall i :: 0 <= i < |r| ==> r[i].0 != cells[k].value)
      ensures |r| == n && forall i :: 0 <= i < |r| ==> r[i].1 >= Count(cells, cells[k])
    {
      HeadLeavesOut(cells, n, k);
    }
    r
  }

  /** A present value that is not among the first `n` most frequent values
      is left out because all `n` places hold values at least as frequent. */
  lemma HeadLeavesOut(cells: seq<Cell>, n: nat, k: nat)
    requires k < |cells| && cells[k].Some?
    requires forall i :: 0 <= i < |Counts(cells)| && i < n ==> Counts(cells)[i].0 != cells[k].value
    ensures n < |Counts(cells)|
    ensures forall i :: 0 <= i < n ==> Counts(cells)[i].1 >= Count(cells, cells[k])
  {
    var all := Counts(cells);
    var j :| 0 <= j < |all| && all[j].0 == cells[k].value;
    LeftOutIsBehind(all, n, j);
  }

  /** The bar for a country in the unfiltered country chart counts exactly
      the rows that choosing that country selects. */
  lemma CountryBarMatchesFilter(t: Table, i: nat)
    requires i < |TopCounts(Column(t.rows, Country), TopCountryBars)|
    requires TopCounts(Column(t.rows, Country), TopCountryBars)[i].0.Str?
    requires TopCounts(Column(t.rows, Country), TopCountryBars)[i].0.s != All
    ensures TopCounts(Column(t.rows, Country), TopCountryBars)[i].1
      == |Select(t, TopCounts(Column(t.rows, Country), TopCountryBars)[i].0.s).rows|
  {
  }

  // ---------------------------------------------------------------------
  // The page

  datatype Figures = Figures(patients: nat, countries: nat, accessTypes: nat, avgScore: Option<real>)

  /** What the page shows for one choice of country. */
  datatype View = View(
    choices: seq<string>,
    data: Table,
    figures: Figures,
    countryBars: seq<Tally>,
    genders: seq<Tally>,
    issueBars: seq<Tally>,
    devices: seq<Tally>,
    preview: seq<Row>)

  /** The first of `needed` that the table lacks, if any. */
  function FirstMissing(t: Table, needed: seq<ColName>): (r: Option<ColName>)
    ensures r.None? <==> forall i :: 0 <= i < |needed| ==> needed[i] in t.columns
    ensures r.Some? ==> r.value in needed && r.value !in t.columns
    ensures r.Some? ==>
      exists i :: 0 <= i < |needed| && needed[i] == r.value && forall j :: 0 <= j < i ==> needed[j] in t.columns
  {
    if needed == [] then None
    else if needed[0] !in t.columns then Some(needed[0])
    else
      var rest := FirstMissing(t, needed[1..]);
      assert rest.Some? ==> rest.value in needed;
      rest
  }

  /** The chart columns, in the order the page draws them. */
  const FigureColumns: seq<ColName> := [Key, AccessType, Score]
  const ChartColumns: seq<ColName> := [Gender, Issue, Age, Device]

  /** The page once every check has passed. */
  function Show(choices: seq<string>, data: Table, avg: Option<real>): (v: View)
    ensures v.choices == choices && v.data == data && v.figures.avgScore == avg
    ensures v.figures.patients <= |data.rows| && v.figures.countries <= |data.rows|
    ensures v.figures.accessTypes <= |data.rows|
    ensures |v.countryBars| <= TopCountryBars && Descending(v.countryBars)
    ensures |v.issueBars| <= TopIssueBars && Descending(v.issueBars)
    ensures Descending(v.genders)
    ensures forall i :: 0 <= i < |v.devices| ==>
      v.devices[i].1 == Count(Column(data.rows, Device), Some(v.devices[i].0))
    ensures |v.preview| == (if |data.rows| <= PreviewRows then |data.rows| else PreviewRows)
    ensures v.preview <= data.rows
  {
    View(
      choices, data,
      Figures(
        NUnique(Column(data.rows, Key)),
        NUnique(Column(data.rows, Country)),
        NUnique(Column(data.rows, AccessType)),
        avg),
      TopCounts(Column(data.rows, Country), TopCountryBars),
      Counts(Column(data.rows, Gender)),
      TopCounts(Column(data.rows, Issue), TopIssueBars),
      Tallies(Column(data.rows, Device)),
      if |data.rows| <= PreviewRows then data.rows else data.rows[..PreviewRows])
  }

  /** The page for the shown rows `data`, or the first failure in page
      order: a column the figures need, then the mean of the scores (text
      among them), then a column the charts need. */
  function Build(choices: seq<string>, data: Table): (r: Result<View>)
    ensures FirstMissing(data, FigureColumns).Some? ==>
      r == Failure(MissingColumn(FirstMissing(data, FigureColumns).value))
    ensures FirstMissing(data, FigureColumns).None? && Impute.Mean(Column(data.rows, Score)).Failure? ==>
      r == Failure(NonNumericScore)
    ensures (FirstMissing(data, FigureColumns).None? && Impute.Mean(Column(data.rows, Score)).Success?
             && FirstMissing(data, ChartColumns).Some?) ==>
      r == Failure(MissingColumn(FirstMissing(data, ChartColumns).value))
    ensures r.Success? <==>
      && FirstMissing(data, FigureColumns + ChartColumns).None?
      && Impute.Mean(Column(data.rows, Score)).Success?
    ensures r.Success? ==> r.value == Show(choices, data, Impute.Mean(Column(data.rows, Score)).value)
  {
    var all := FigureColumns + ChartColumns;
    assert forall i :: 0 <= i < |FigureColumns| ==> FigureColumns[i] == all[i];
    assert forall i :: 0 <= i < |ChartColumns| ==> ChartColumns[i] == all[i + |FigureColumns|];
    match FirstMissing(data, FigureColumns)
    case Some(c) => Failure(MissingColumn(c))
    case None =>
      var avg :- Impute.Mean(Column(data.rows, Score));
      match FirstMissing(data, ChartColumns)
      case Some(c) => Failure(MissingColumn(c))
      case None => Success(Show(choices, data, avg))
  }

  /** The page for the joined table `t` and the chosen country: the country
      list first (a missing country column or unsortable countries fail
      here), then the page for the selected rows. */
  function Render(t: Table, choice: string): (r: Result<View>)
    ensures Country !in t.columns ==> r == Failure(MissingColumn(Country))
    ensures CountryList(t).Failure? ==> r == Failure(CountryList(t).error)
    ensures CountryList(t).Success? ==> r == Build(CountryList(t).value, Select(t, choice))
    ensures r.Success? ==> r.value.choices == CountryList(t).value && r.value.data == Select(t, choice)
  {
    var choices :- CountryList(t);
    Build(choices, Select(t, choice))
  }

  /** The headline figures count distinct values among the shown rows: no
      more patients than rows, and the average is the mean of the present
      scores. */
  lemma ShowFigures(choices: seq<string>, data: Table, avg: Option<real>)
    requires Impute.Mean(Column(data.rows, Score)) == Success(avg)
    ensures Show(choices, data, avg).figures.patients == NUnique(Column(data.rows, Key))
    ensures Show(choices, data, avg).figures.patients <= |data.rows|
    ensures Show(choices, data, avg).figures.countries == NUnique(Column(data.rows, Country))
    ensures Show(choices, data, avg).figures.accessTypes == NUnique(Column(data.rows, AccessType))
    ensures avg.None? <==> forall i :: 0 <= i < |data.rows| ==> Get(data.rows[i], Score).None?
  {
  }

  /** The charts: at most ten country bars and six issue bars, each the most
      frequent values among the shown rows; every gender and every device
      type with its count; the preview is the first hundred shown rows. */
  lemma ShowCharts(choices: seq<string>, data: Table, avg: Option<real>)
    ensures Show(choices, data, avg).countryBars == TopCounts(Column(data.rows, Country), TopCountryBars)
    ensures |Show(choices, data, avg).countryBars| <= TopCountryBars
    ensures Show(choices, data, avg).issueBars == TopCounts(Column(data.rows, Issue), TopIssueBars)
    ensures |Show(choices, data, avg).issueBars| <= TopIssueBars
    ensures Show(choices, data, avg).genders == Counts(Column(data.rows, Gender))
    ensures Show(choices, data, avg).devices == Tallies(Column(data.rows, Device))
    ensures |Show(choices, data, avg).preview| <= PreviewRows
    ensures Show(choices, data, avg).preview <= data.rows
  {
  }

  /** With one country chosen, the page shows at most one country. */
  lemma RenderOneCountry(t: Table, choice: string)
    requires choice != All && Render(t, choice).Success?
    ensures Render(t, choice).value.figures.countries <= 1
  {
    var data := Select(t, choice);
    ShowFigures(CountryList(t).value, data, Impute.Mean(Column(data.rows, Score)).value);
    CountriesFigureAtMostOne(t, choice);
  }

  /** The whole script: the joined table built by the script's own copy of
      the preparation run (no score guard), stored and read back unchanged,
      then rendered for the chosen country. Every shown row is a row of that
      joined table. */
  function Page(profiles: Table, feedback: Table, choice: string): (r: Result<View>)
    ensures Pipeline.Prepare(profiles, feedback, Pipeline.Unchecked).Failure? ==>
      r == Failure(Pipeline.Prepare(profiles, feedback, Pipeline.Unchecked).error)
    ensures r.Success? ==> forall row :: row in r.value.data.rows ==>
      row in Pipeline.Prepare(profiles, feedback, Pipeline.Unchecked).value.rows
    ensures Pipeline.Prepare(profiles, feedback, Pipeline.Unchecked).Success? ==>
      r == Render(Pipeline.Prepare(profiles, feedback, Pipeline.Unchecked).value, choice)
  {
    var merged :- Pipeline.Prepare(profiles, feedback, Pipeline.Unchecked);
    Render(merged, choice)
  }
}

=== FILE: impute.dfy ===
/** Filling missing `satisfaction_score` cells with the mean of the present
    ones, the mean being taken once over the whole joined table. */
module Impute {
  import opened Tables

  /** A value the mean can add up: not text. */
  predicate IsNumber(v: Value)
  {
    !v.Str?
  }

  function AsReal(v: Value): real
  {
    match v
    case Int(i) => i as real
    case Real(x) => x
    case Str(_) => 0.0
  }

  function Sum(vs: seq<Value>): real
  {
    if vs == [] then 0.0 else AsReal(vs[0]) + Sum(vs[1..])
  }

  /** No present cell holds text. */
  predicate AllNumbers(cells: seq<Cell>)
  {
    forall i :: 0 <= i < |cells| && cells[i].Some? ==> IsNumber(cells[i].value)
  }

  /** `n` copies of `x` added up. */
  function Times(n: nat, x: real): real
  {
    if n == 0 then 0.0 else Times(n - 1, x) + x
  }

  lemma {:induction false} TimesIsProduct(n: nat, x: real)
    ensures Times(n, x) == n as real * x
  {
    if n > 0 {
      TimesIsProduct(n - 1, x);
    }
  }

  lemma {:induction false} TimesAdd(n: nat, k: nat, x: real)
    ensures Times(n + k, x) == Times(n, x) + Times(k, x)
  {
    if k > 0 {
      TimesAdd(n, k - 1, x);
    }
  }

  lemma {:induction false} TimesStrict(n: nat, a: real, b: real)
    requires n > 0 && a < b
    ensures Times(n, a) < Times(n, b)
  {
    if n > 1 {
      TimesStrict(n - 1, a, b);
    }
  }

  /** The arithmetic mean of a non-empty list of values: the number that,
      added once per value, gives their sum. */
  function Average(vs: seq<Value>): (m: real)
    requires vs != []
    ensures Times(|vs|, m) == Sum(vs)
  {
    var n := |vs| as real;
    var m := Sum(vs) / n;
    assert m * n == Sum(vs);
    TimesIsProduct(|vs|, m);
    m
  }

  /** `column.mean()`: the arithmetic mean of the present cells, no mean when
      none is present, and a failure when a present cell holds text. */
  function Mean(cells: seq<Cell>): (r: Result<Option<real>>)
    ensures r.Success? <==> AllNumbers(cells)
    ensures r.Failure? ==> r.error == NonNumericScore
    ensures r.Success? ==> (r.value.None? <==> forall i :: 0 <= i < |cells| ==> cells[i].None?)
    ensures r.Success? && r.value.Some? ==> Times(|Present(cells)|, r.value.value) == Sum(Present(cells))
  {
    var vs := Present(cells);
    PresentEmpty(cells);
    if !AllNumbers(cells) then Failure(NonNumericScore)
    else if vs == [] then Success(None)
    else Success(Some(Average(vs)))
  }

  /** Each missing score replaced by `m`; every other cell as it was. */
  function FillRows(rows: seq<Row>, m: real): (r: seq<Row>)
    ensures |r| == |rows|
  {
    seq(|rows|, i requires 0 <= i < |rows| =>
      if Get(rows[i], Score).None? then rows[i][Score := Some(Real(m))] else rows[i])
  }

  /** `df['satisfaction_score'] = df['satisfaction_score'].fillna(df['satisfaction_score'].mean())`:
      the column must exist and hold no text. Present scores and every other
      column are left alone; every missing score gets the same value, the
      mean of the present scores; with no score present nothing changes. */
  function Impute(t: Table): (r: Result<Table>)
    ensures Score !in t.columns ==> r == Failure(MissingColumn(Score))
    ensures Score in t.columns ==> (r.Success? <==> Mean(Column(t.rows, Score)).Success?)
    ensures Score in t.columns && r.Failure? ==> r.error == NonNumericScore
    ensures r.Success? ==> r.value.columns == t.columns && |r.value.rows| == |t.rows|
    ensures r.Success? ==> forall i, c :: 0 <= i < |t.rows| && c != Score ==>
      Get(r.value.rows[i], c) == Get(t.rows[i], c)
    ensures r.Success? ==> forall i :: 0 <= i < |t.rows| && Get(t.rows[i], Score).Some? ==>
      Get(r.value.rows[i], Score) == Get(t.rows[i], Score)
    ensures r.Success? && Mean(Column(t.rows, Score)).value.Some? ==>
      forall i :: 0 <= i < |t.rows| && Get(t.rows[i], Score).None? ==>
        Get(r.value.rows[i], Score) == Some(Real(Mean(Column(t.rows, Score)).value.value))
    ensures r.Success? && Mean(Column(t.rows, Score)).value.None? ==> r.value == t
    ensures r.Success? && Valid(t) ==> Valid(r.value)
  {
    if Score !in t.columns then Failure(MissingColumn(Score))
    else
      var mean :- Mean(Column(t.rows, Score));
      match mean
      case None => Success(t)
      case Some(m) =>
        var out := Table(t.columns, FillRows(t.rows, m));
        assert Valid(t) ==> Valid(out) by {
          if Valid(t) {
            forall r | r in out.rows ensures r.Keys == ColumnSet(out.columns) {
              var i :| 0 <= i < |out.rows| && out.rows[i] == r;
              assert t.rows[i] in t.rows;
            }
          }
        }
        Success(out)
  }

  /** With at least one score present, no score is missing afterwards. */
  lemma NoMissingAfterImpute(t: Table)
    requires Impute(t).Success?
    requires exists i :: 0 <= i < |t.rows| && Get(t.rows[i], Score).Some?
    ensures forall i :: 0 <= i < |t.rows| ==> Get(Impute(t).value.rows[i], Score).Some?
  {
    var cells := Column(t.rows, Score);
    var i :| 0 <= i < |t.rows| && Get(t.rows[i], Score).Some?;
    assert cells[i].Some?;
  }

  /** With every score missing the mean is undefined and the column stays
      entirely missing. */
  lemma AllMissingStaysMissing(t: Table)
    requires Impute(t).Success?
    requires forall i :: 0 <= i < |t.rows| ==> Get(t.rows[i], Score).None?
    ensures Impute(t).value == t
    ensures forall i :: 0 <= i < |t.rows| ==> Get(Impute(t).value.rows[i], Score).None?
  {
    assert Mean(Column(t.rows, Score)) == Success(None);
  }

  /** Imputing an imputed table changes nothing. */
  lemma ImputeIdempotent(t: Table)
    requires Impute(t).Success?
    ensures Impute(Impute(t).value) == Impute(t)
  {
    var u := Impute(t).value;
    var cells, ucells := Column(t.rows, Score), Column(u.rows, Score);
    if Mean(cells).value.None? {
      assert u == t;
    } else {
      var m := Mean(cells).value.value;
      forall i | 0 <= i < |ucells|
        ensures ucells[i] == (if cells[i].None? then Some(Real(m)) else cells[i])
      {
      }
      assert AllNumbers(ucells);
      NoMissingAfterImpute(t);
      var w := Impute(u).value;
      assert w.rows == u.rows by {
        forall i | 0 <= i < |u.rows| ensures w.rows[i] == u.rows[i] {
          assert Get(u.rows[i], Score).Some?;
        }
      }
    }
  }

  // ---------------------------------------------------------------------
  // What the filled value is

  lemma {:induction false} SumBounds(vs: seq<Value>, lo: real, hi: real)
    requires forall j :: 0 <= j < |vs| ==> lo <= AsReal(vs[j]) <= hi
    ensures Times(|vs|, lo) <= Sum(vs) <= Times(|vs|, hi)
  {
    if vs != [] {
      SumBounds(vs[1..], lo, hi);
      assert lo <= AsReal(vs[0]) <= hi;
    }
  }

  /** The filled value lies within the range of the present scores: when
      every present score is between `lo` and `hi` (1 and 5 on the
      questionnaire's scale) so is their mean. */
  lemma MeanWithinBounds(cells: seq<Cell>, lo: real, hi: real)
    requires Mean(cells).Success? && Mean(cells).value.Some?
    requires forall i :: 0 <= i < |cells| && cells[i].Some? ==> lo <= AsReal(cells[i].value) <= hi
    ensures lo <= Mean(cells).value.value <= hi
  {
    var vs := Present(cells);
    forall j | 0 <= j < |vs| ensures lo <= AsReal(vs[j]) <= hi {
      PresentMembers(cells, vs[j]);
    }
    SumBounds(vs, lo, hi);
    QuotientBounds(Mean(cells).value.value, |vs|, Sum(vs), lo, hi);
  }

  lemma QuotientBounds(m: real, n: nat, s: real, lo: real, hi: real)
    requires n > 0 && Times(n, m) == s && Times(n, lo) <= s <= Times(n, hi)
    ensures lo <= m <= hi
  {
    if m < lo {
      TimesStrict(n, m, lo);
    }
    if m > hi {
      TimesStrict(n, hi, m);
    }
  }

  /** The column after filling its gaps with `m`. */
  function Filled(cells: seq<Cell>, m: real): (r: seq<Cell>)
    ensures |r| == |cells|
  {
    seq(|cells|, i requires 0 <= i < |cells| => if cells[i].None? then Some(Real(m)) else cells[i])
  }

  lemma {:induction false} FillSum(cells: seq<Cell>, m: real)
    ensures |Present(Filled(cells, m))| == |cells|
    ensures Sum(Present(Filled(cells, m))) == Sum(Present(cells)) + Times(|cells| - |Present(cells)|, m)
  {
    if cells != [] {
      var rest := cells[1..];
      var f := Filled(cells, m);
      FillSum(rest, m);
      assert f[1..] == Filled(rest, m);
      var v := f[0].value;
      assert Present(f) == [v] + Present(Filled(rest, m));
      assert ([v] + Present(Filled(rest, m)))[1..] == Present(Filled(rest, m));
      assert Sum(Present(f)) == AsReal(v) + Sum(Present(Filled(rest, m)));
      if cells[0].Some? {
        assert Present(cells) == [cells[0].value] + Present(rest);
        assert ([cells[0].value] + Present(rest))[1..] == Present(rest);
        assert Sum(Present(cells)) == AsReal(cells[0].value) + Sum(Present(rest));
      } else {
        assert Present(cells) == Present(rest);
      }
    }
  }

  /** Mean imputation keeps the mean: the filled column's mean is the
      value that was filled in. */
  lemma ImputeKeepsMean(t: Table)
    requires Impute(t).Success? && Mean(Column(t.rows, Score)).value.Some?
    ensures Mean(Column(Impute(t).value.rows, Score)) == Mean(Column(t.rows, Score))
  {
    var cells := Column(t.rows, Score);
    var m := Mean(cells).value.value;
    var filled := Filled(cells, m);
    assert Column(Impute(t).value.rows, Score) == filled;
    FillSum(cells, m);
    assert AllNumbers(filled);
    PresentEmpty(cells);
    PresentEmpty(filled);
    var m' := Mean(filled).value.value;
    var n, k := |Present(cells)|, |cells| - |Present(cells)|;
    TimesAdd(n, k, m);
    SameQuotient(m', m, n + k);
  }

  lemma SameQuotient(m': real, m: real, n: nat)
    requires n > 0 && Times(n, m') == Times(n, m)
    ensures m' == m
  {
    if m' < m {
      TimesStrict(n, m', m);
    }
    if m < m' {
      TimesStrict(n, m, m');
    }
  }
}

=== FILE: join.dfy ===
/** The inner equi-join of profiles and feedback on `patient_id`, with the
    suffixes `_profile` and `_feedback` on the non-key columns both sides have. */
module Join {
  import opened Seqs
  import opened Tables
  import Normalize

  datatype Side = Profile | Feedback

  /** An output column: its name, and the input side and column it is taken from. */
  datatype OutColumn = OutColumn(name: ColName, side: Side, source: ColName)

  /** A non-key column that both inputs have. */
  predicate Collides(left: seq<ColName>, right: seq<ColName>, c: ColName)
  {
    c != Key && c in left && c in right
  }

  function LeftName(left: seq<ColName>, right: seq<ColName>, c: ColName): ColName
  {
    if Collides(left, right, c) then c + ProfileSuffix else c
  }

  function RightName(left: seq<ColName>, right: seq<ColName>, c: ColName): ColName
  {
    if Collides(left, right, c) then c + FeedbackSuffix else c
  }

  /** The output schema: every left column in order (the key among them),
      then every right column except the key, in order. */
  function Plan(left: seq<ColName>, right: seq<ColName>): (plan: seq<OutColumn>)
    ensures |plan| == |left| + |Normalize.Without(right, Key)|
    ensures forall i :: 0 <= i < |left| ==>
      plan[i].side == Profile && plan[i].source == left[i]
      && (plan[i].name == left[i] <==> !Collides(left, right, left[i]))
    ensures forall i :: |left| <= i < |plan| ==>
      plan[i].side == Feedback && plan[i].source != Key && plan[i].source in right
      && (plan[i].name == plan[i].source <==> !Collides(left, right, plan[i].source))
  {
    var rest := Normalize.Without(right, Key);
    assert forall j :: 0 <= j < |rest| ==> rest[j] != Key && rest[j] in right by {
      forall j | 0 <= j < |rest| ensures rest[j] != Key && rest[j] in right {
        assert rest[j] in rest;
      }
    }
    seq(|left|, i requires 0 <= i < |left| => OutColumn(LeftName(left, right, left[i]), Profile, left[i]))
    + seq(|rest|, i requires 0 <= i < |rest| => OutColumn(RightName(left, right, rest[i]), Feedback, rest[i]))
  }

  function Names(plan: seq<OutColumn>): (names: seq<ColName>)
    ensures |names| == |plan|
    ensures forall i :: 0 <= i < |plan| ==> names[i] == plan[i].name
  {
    seq(|plan|, i requires 0 <= i < |plan| => plan[i].name)
  }

  function Pick(p: Row, f: Row, o: OutColumn): Cell
  {
    if o.side == Profile then Get(p, o.source) else Get(f, o.source)
  }

  /** The output row for a matching profile row `p` and feedback row `f`. */
  function JoinRow(plan: seq<OutColumn>, p: Row, f: Row): (row: Row)
    requires NoDuplicates(Names(plan))
    ensures row.Keys == ColumnSet(Names(plan))
    ensures forall i :: 0 <= i < |plan| ==> row[plan[i].name] == Pick(p, f, plan[i])
  {
    var row := map i | 0 <= i < |plan| :: plan[i].name := Pick(p, f, plan[i]);
    assert forall c :: c in row.Keys <==> c in ColumnSet(Names(plan)) by {
      forall c ensures c in row.Keys <==> c in ColumnSet(Names(plan)) {
        if c in ColumnSet(Names(plan)) {
          var i :| 0 <= i < |plan| && Names(plan)[i] == c;
          assert plan[i].name == c;
        }
      }
    }
    row
  }

  /** The output rows for one profile row: one per feedback row with the same
      key, in feedback order. */
  function Matches(plan: seq<OutColumn>, p: Row, feedback: seq<Row>): seq<Row>
    requires NoDuplicates(Names(plan))
  {
    if feedback == [] then []
    else
      (if Get(feedback[0], Key) == Get(p, Key) then [JoinRow(plan, p, feedback[0])] else [])
      + Matches(plan, p, feedback[1..])
  }

  /** The output rows, profile row by profile row. */
  function JoinRows(plan: seq<OutColumn>, profiles: seq<Row>, feedback: seq<Row>): seq<Row>
    requires NoDuplicates(Names(plan))
  {
    if profiles == [] then []
    else Matches(plan, profiles[0], feedback) + JoinRows(plan, profiles[1..], feedback)
  }

  /** `pd.merge(profiles, feedback, on='patient_id', suffixes=('_profile', '_feedback'))`:
      a missing key column is a KeyError, suffixes that produce a repeated
      column name a MergeError. */
  function Merge(profiles: Table, feedback: Table): (r: Result<Table>)
    ensures r.Success? <==>
      Key in profiles.columns && Key in feedback.columns
      && NoDuplicates(Names(Plan(profiles.columns, feedback.columns)))
    ensures r.Failure? && Key in profiles.columns && Key in feedback.columns ==>
      r.error == DuplicateColumns
  {
    if Key !in profiles.columns || Key !in feedback.columns then Failure(MissingColumn(Key))
    else
      var plan := Plan(profiles.columns, feedback.columns);
      if !NoDuplicates(Names(plan)) then Failure(DuplicateColumns)
      else Success(Table(Names(plan), JoinRows(plan, profiles.rows, feedback.rows)))
  }

  // ---------------------------------------------------------------------
  // The output schema

  /** An output name shorter than both suffixes is not renamed: it is a
      column of one of the inputs. */
  lemma ShortNameFromInput(left: seq<ColName>, right: seq<ColName>, c: ColName)
    requires c in Names(Plan(left, right))
    requires |c| < |ProfileSuffix| && |c| < |FeedbackSuffix|
    ensures c in left || c in right
  {
    var plan := Plan(left, right);
    var i :| 0 <= i < |plan| && Names(plan)[i] == c;
    PlanMembers(left, right, plan[i]);
  }

  /** Every output column is a left column under its left name or a non-key
      right column under its right name, and every such column is output. */
  lemma PlanMembers(left: seq<ColName>, right: seq<ColName>, o: OutColumn)
    ensures o in Plan(left, right) <==>
      || (o.side == Profile && o.source in left && o.name == LeftName(left, right, o.source))
      || (o.side == Feedback && o.source in right && o.source != Key && o.name == RightName(left, right, o.source))
  {
    var rest := Normalize.Without(right, Key);
    var lp := seq(|left|, i requires 0 <= i < |left| => OutColumn(LeftName(left, right, left[i]), Profile, left[i]));
    var rp := seq(|rest|, i requires 0 <= i < |rest| => OutColumn(RightName(left, right, rest[i]), Feedback, rest[i]));
    assert Plan(left, right) == lp + rp;
    if o.side == Profile && o.source in left && o.name == LeftName(left, right, o.source) {
      var i :| 0 <= i < |left| && left[i] == o.source;
      assert lp[i] == o;
    }
    if o.side == Feedback && o.source in right && o.source != Key && o.name == RightName(left, right, o.source) {
      var i :| 0 <= i < |rest| && rest[i] == o.source;
      assert rp[i] == o;
    }
  }

  /** The collision policy on a successful merge. Each non-key column name
      both inputs have is output exactly twice, once per side, as
      `<name>_profile` and `<name>_feedback`, and never under its bare name;
      every other column is output once under its own name; the key is
      output once, taken from the profiles. */
  lemma SuffixPolicy(profiles: Table, feedback: Table, c: ColName)
    requires Merge(profiles, feedback).Success?
    ensures var plan := Plan(profiles.columns, feedback.columns);
      var out := Merge(profiles, feedback).value.columns;
      && (Collides(profiles.columns, feedback.columns, c) ==>
        && OutColumn(c + ProfileSuffix, Profile, c) in plan
        && OutColumn(c + FeedbackSuffix, Feedback, c) in plan
        && (forall o :: o in plan && o.source == c ==>
              o == OutColumn(c + ProfileSuffix, Profile, c) || o == OutColumn(c + FeedbackSuffix, Feedback, c))
        && c + ProfileSuffix in out && c + FeedbackSuffix in out)
      && (c in profiles.columns && !Collides(profiles.columns, feedback.columns, c) ==>
        OutColumn(c, Profile, c) in plan && c in out)
      && (c in feedback.columns && c != Key && !Collides(profiles.columns, feedback.columns, c) ==>
        OutColumn(c, Feedback, c) in plan && c in out)
      && (forall o :: o in plan && o.source == Key ==> o == OutColumn(Key, Profile, Key))
      && Count(out, Key) == 1
  {
    var left, right := profiles.columns, feedback.columns;
    var plan := Plan(left, right);
    var out := Names(plan);
    assert out == Merge(profiles, feedback).value.columns;
    PlanMembers(left, right, OutColumn(c + ProfileSuffix, Profile, c));
    PlanMembers(left, right, OutColumn(c + FeedbackSuffix, Feedback, c));
    PlanMembers(left, right, OutColumn(c, Profile, c));
    PlanMembers(left, right, OutColumn(c, Feedback, c));
    PlanMembers(left, right, OutColumn(Key, Profile, Key));
    forall o | o in plan && (o.source == c || o.source == Key)
      ensures o.source == c && Collides(left, right, c) ==>
        o == OutColumn(c + ProfileSuffix, Profile, c) || o == OutColumn(c + FeedbackSuffix, Feedback, c)
      ensures o.source == Key ==> o == OutColumn(Key, Profile, Key)
    {
      PlanMembers(left, right, o);
    }
    forall o | o in plan ensures o.name in out {
      var i :| 0 <= i < |plan| && plan[i] == o;
      assert out[i] == o.name;
    }
    OnceWhenUnique(out, Key);
  }

  lemma {:induction false} OnceWhenUnique<T>(s: seq<T>, x: T)
    requires NoDuplicates(s) && x in s
    ensures Count(s, x) == 1
  {
    if s[0] == x {
      CountBound(s[1..], x);
    } else {
      OnceWhenUnique(s[1..], x);
    }
  }

  /** The merged table is well formed whenever its inputs are. */
  lemma MergeValid(profiles: Table, feedback: Table)
    requires Merge(profiles, feedback).Success?
    ensures Valid(Merge(profiles, feedback).value)
  {
    var plan := Plan(profiles.columns, feedback.columns);
    var m := Merge(profiles, feedback).value;
    forall row | row in m.rows ensures row.Keys == ColumnSet(m.columns) {
      var i, j := MembersOfJoin(plan, profiles.rows, feedback.rows, row);
    }
  }

  // ---------------------------------------------------------------------
  // Which rows are output

  lemma JoinRowKey(plan: seq<OutColumn>, p: Row, f: Row)
    requires NoDuplicates(Names(plan)) && OutColumn(Key, Profile, Key) in plan
    ensures Key in JoinRow(plan, p, f) && JoinRow(plan, p, f)[Key] == Get(p, Key)
  {
    var i :| 0 <= i < |plan| && plan[i] == OutColumn(Key, Profile, Key);
  }

  lemma {:induction false} MembersOfMatches(plan: seq<OutColumn>, p: Row, feedback: seq<Row>, row: Row)
    requires NoDuplicates(Names(plan))
    ensures row in Matches(plan, p, feedback) <==>
      exists j :: 0 <= j < |feedback| && Get(feedback[j], Key) == Get(p, Key) && row == JoinRow(plan, p, feedback[j])
  {
    if feedback != [] {
      MembersOfMatches(plan, p, feedback[1..], row);
      if row in Matches(plan, p, feedback[1..]) {
        var j :| 0 <= j < |feedback[1..]| && Get(feedback[1..][j], Key) == Get(p, Key)
          && row == JoinRow(plan, p, feedback[1..][j]);
        assert feedback[j + 1] == feedback[1..][j];
      }
      if exists j :: 0 <= j < |feedback| && Get(feedback[j], Key) == Get(p, Key) && row == JoinRow(plan, p, feedback[j]) {
        var j :| 0 <= j < |feedback| && Get(feedback[j], Key) == Get(p, Key) && row == JoinRow(plan, p, feedback[j]);
        if j > 0 {
          assert feedback[1..][j - 1] == feedback[j];
        }
      }
    }
  }

  /** A row of the join comes from some profile row and some feedback row. */
  lemma {:induction false} MembersOfJoin(plan: seq<OutColumn>, profiles: seq<Row>, feedback: seq<Row>, row: Row)
      returns (i: nat, j: nat)
    requires NoDuplicates(Names(plan))
    requires row in JoinRows(plan, profiles, feedback)
    ensures i < |profiles| && j < |feedback|
    ensures Get(feedback[j], Key) == Get(profiles[i], Key) && row == JoinRow(plan, profiles[i], feedback[j])
  {
    if row in Matches(plan, profiles[0], feedback) {
      MembersOfMatches(plan, profiles[0], feedback, row);
      i := 0;
      j :| 0 <= j < |feedback| && Get(feedback[j], Key) == Get(profiles[0], Key)
        && row == JoinRow(plan, profiles[0], feedback[j]);
    } else {
      var i' : nat;
      i', j := MembersOfJoin(plan, profiles[1..], feedback, row);
      i := i' + 1;
    }
  }

  /** Every matching pair of rows gives an output row. */
  lemma {:induction false} PairsInJoin(plan: seq<OutColumn>, profiles: seq<Row>, feedback: seq<Row>, i: nat, j: nat)
    requires NoDuplicates(Names(plan))
    requires i < |profiles| && j < |feedback| && Get(feedback[j], Key) == Get(profiles[i], Key)
    ensures JoinRow(plan, profiles[i], feedback[j]) in JoinRows(plan, profiles, feedback)
  {
    if i == 0 {
      MembersOfMatches(plan, profiles[0], feedback, JoinRow(plan, profiles[0], feedback[j]));
    } else {
      PairsInJoin(plan, profiles[1..], feedback, i - 1, j);
    }
  }

  /** Inner-join membership: a row is output exactly when it joins a profile
      row and a feedback row with the same key; its key is that shared key,
      so it occurs among the profiles' keys and among the feedback's keys. */
  lemma JoinMembership(profiles: Table, feedback: Table, row: Row)
    requires Merge(profiles, feedback).Success?
    ensures var plan := Plan(profiles.columns, feedback.columns);
      row in Merge(profiles, feedback).value.rows <==>
        exists i, j :: 0 <= i < |profiles.rows| && 0 <= j < |feedback.rows|
          && Get(feedback.rows[j], Key) == Get(profiles.rows[i], Key)
          && row == JoinRow(plan, profiles.rows[i], feedback.rows[j])
    ensures row in Merge(profiles, feedback).value.rows ==>
      Get(row, Key) in Column(profiles.rows, Key) && Get(row, Key) in Column(feedback.rows, Key)
  {
    var plan := Plan(profiles.columns, feedback.columns);
    SuffixPolicy(profiles, feedback, Key);
    PlanMembers(profiles.columns, feedback.columns, OutColumn(Key, Profile, Key));
    if row in Merge(profiles, feedback).value.rows {
      var i, j := MembersOfJoin(plan, profiles.rows, feedback.rows, row);
      JoinRowKey(plan, profiles.rows[i], feedback.rows[j]);
      assert Column(profiles.rows, Key)[i] == Get(row, Key);
      assert Column(feedback.rows, Key)[j] == Get(row, Key);
    }
    if exists i, j :: 0 <= i < |profiles.rows| && 0 <= j < |feedback.rows|
          && Get(feedback.rows[j], Key) == Get(profiles.rows[i], Key)
          && row == JoinRow(plan, profiles.rows[i], feedback.rows[j]) {
      var i, j :| 0 <= i < |profiles.rows| && 0 <= j < |feedback.rows|
          && Get(feedback.rows[j], Key) == Get(profiles.rows[i], Key)
          && row == JoinRow(plan, profiles.rows[i], feedback.rows[j]);
      PairsInJoin(plan, profiles.rows, feedback.rows, i, j);
    }
  }

  // ---------------------------------------------------------------------
  // How many rows are output

  lemma {:induction false} MatchesCount(plan: seq<OutColumn>, p: Row, feedback: seq<Row>, k: Cell)
    requires NoDuplicates(Names(plan)) && OutColumn(Key, Profile, Key) in plan
    ensures KeyCount(Matches(plan, p, feedback), k) == if Get(p, Key) == k then KeyCount(feedback, k) else 0
  {
    if feedback != [] {
      var rest := Matches(plan, p, feedback[1..]);
      MatchesCount(plan, p, feedback[1..], k);
      assert Column(feedback, Key) == [Get(feedback[0], Key)] + Column(feedback[1..], Key);
      CountAppend([Get(feedback[0], Key)], Column(feedback[1..], Key), k);
      if Get(feedback[0], Key) == Get(p, Key) {
        var row := JoinRow(plan, p, feedback[0]);
        JoinRowKey(plan, p, feedback[0]);
        assert Matches(plan, p, feedback) == [row] + rest;
        ColumnAppend([row], rest, Key);
        assert Column([row], Key) == [Get(p, Key)];
        CountAppend([Get(p, Key)], Column(rest, Key), k);
      } else {
        assert Matches(plan, p, feedback) == [] + rest == rest;
        assert KeyCount(Matches(plan, p, feedback), k) == KeyCount(rest, k);
      }
    }
  }

  lemma {:induction false} JoinRowsCount(plan: seq<OutColumn>, profiles: seq<Row>, feedback: seq<Row>, k: Cell)
    requires NoDuplicates(Names(plan)) && OutColumn(Key, Profile, Key) in plan
    ensures KeyCount(JoinRows(plan, profiles, feedback), k) == KeyCount(profiles, k) * KeyCount(feedback, k)
  {
    if profiles != [] {
      var m := Matches(plan, profiles[0], feedback);
      JoinRowsCount(plan, profiles[1..], feedback, k);
      MatchesCount(plan, profiles[0], feedback, k);
      ColumnAppend(m, JoinRows(plan, profiles[1..], feedback), Key);
      CountAppend(Column(m, Key), Column(JoinRows(plan, profiles[1..], feedback), Key), k);
      assert Column(profiles, Key) == [Get(profiles[0], Key)] + Column(profiles[1..], Key);
      CountAppend([Get(profiles[0], Key)], Column(profiles[1..], Key), k);
      var h: nat := if Get(profiles[0], Key) == k then 1 else 0;
      var a, b := KeyCount(profiles[1..], k), KeyCount(feedback, k);
      assert KeyCount(profiles, k) == h + a;
      assert KeyCount(m, k) == h * b;
      assert (h + a) * b == h * b + a * b;
    }
  }

  /** Inner-join cardinality: for every key, the number of output rows with
      that key is the number of profile rows with it times the number of
      feedback rows with it. */
  lemma JoinCardinality(profiles: Table, feedback: Table, k: Cell)
    requires Merge(profiles, feedback).Success?
    ensures KeyCount(Merge(profiles, feedback).value.rows, k) == KeyCount(profiles.rows, k) * KeyCount(feedback.rows, k)
  {
    SuffixPolicy(profiles, feedback, Key);
    JoinRowsCount(Plan(profiles.columns, feedback.columns), profiles.rows, feedback.rows, k);
  }

  /** No key shared by the two inputs gives an empty table, not an error. */
  lemma DisjointKeysEmptyJoin(profiles: Table, feedback: Table)
    requires Key in profiles.columns && Key in feedback.columns
    requires NoDuplicates(Names(Plan(profiles.columns, feedback.columns)))
    requires forall i, j :: 0 <= i < |profiles.rows| && 0 <= j < |feedback.rows| ==>
      Get(profiles.rows[i], Key) != Get(feedback.rows[j], Key)
    ensures Merge(profiles, feedback).Success?
    ensures Merge(profiles, feedback).value.rows == []
  {
    var rows := Merge(profiles, feedback).value.rows;
    if rows != [] {
      JoinMembership(profiles, feedback, rows[0]);
    }
  }
}

=== FILE: normalize.dfy ===
/** Removal of the document store's surrogate identifier from the feedback
    table before it is joined. */
module Normalize {
  import opened Seqs
  import opened Tables

  /** The columns other than `c`, in their original order. */
  function Without(columns: seq<ColName>, c: ColName): (r: seq<ColName>)
    ensures forall x :: x in r <==> x in columns && x != c
    ensures IsSubsequence(r, columns)
    ensures NoDuplicates(columns) ==> NoDuplicates(r)
  {
    if columns == [] then []
    else if columns[0] == c then Without(columns[1..], c)
    else
      var rest := Without(columns[1..], c);
      assert NoDuplicates(columns) ==> columns[0] !in columns[1..];
      [columns[0]] + rest
  }

  /** Dropping column `c` when the table has it, and otherwise returning the
      table as it is: no other column and no row is touched either way. */
  function DropIfPresent(t: Table, c: ColName): (r: Table)
    ensures c !in r.columns
    ensures c !in t.columns ==> r == t
    ensures forall x :: x in r.columns <==> x in t.columns && x != c
    ensures IsSubsequence(r.columns, t.columns)
    ensures |r.rows| == |t.rows|
    ensures forall i, x :: 0 <= i < |r.rows| && x != c ==> Get(r.rows[i], x) == Get(t.rows[i], x)
    ensures Valid(t) ==> Valid(r)
  {
    if c in t.columns then
      Table(Without(t.columns, c), seq(|t.rows|, i requires 0 <= i < |t.rows| => t.rows[i] - {c}))
    else
      SubsequenceReflexive(t.columns);
      t
  }
}

=== FILE: ordering.dfy ===
/** The two orders the dashboard sorts by: text in code-point order (Python's
    `sorted` on strings), and value counts from the most frequent down
    (`value_counts`). */
module Ordering {
  import opened Seqs
  import opened Tables

  /** Python's `<` on strings: the first differing character decides, and a
      proper prefix comes first. */
  predicate StrLess(a: string, b: string)
  {
    if a == [] then b != []
    else if b == [] then false
    else if a[0] != b[0] then a[0] < b[0]
    else StrLess(a[1..], b[1..])
  }

  lemma {:induction false} StrLessIrreflexive(a: string)
    ensures !StrLess(a, a)
  {
    if a != [] {
      StrLessIrreflexive(a[1..]);
    }
  }

  lemma {:induction false} StrLessTransitive(a: string, b: string, c: string)
    requires StrLess(a, b) && StrLess(b, c)
    ensures StrLess(a, c)
  {
    if a != [] && b != [] && c != [] && a[0] == b[0] && b[0] == c[0] {
      StrLessTransitive(a[1..], b[1..], c[1..]);
    }
  }

  /** Any two different strings are ordered one way or the other. */
  lemma {:induction false} StrLessTotal(a: string, b: string)
    requires a != b
    ensures StrLess(a, b) || StrLess(b, a)
  {
    if a != [] && b != [] && a[0] == b[0] {
      assert a == [a[0]] + a[1..] && b == [b[0]] + b[1..];
      StrLessTotal(a[1..], b[1..]);
    }
  }

  lemma {:induction false} StrLessAsymmetric(a: string, b: string)
    requires StrLess(a, b)
    ensures !StrLess(b, a)
  {
    if StrLess(b, a) {
      StrLessTransitive(a, b, a);
      StrLessIrreflexive(a);
    }
  }

  /** Ascending with no repeats. */
  predicate StrictlySorted(s: seq<string>)
  {
    forall i, j :: 0 <= i < j < |s| ==> StrLess(s[i], s[j])
  }

  /** `x` put in its place in a sorted list, unless it is already there. */
  function Insert(x: string, s: seq<string>): (r: seq<string>)
    requires StrictlySorted(s)
    ensures StrictlySorted(r)
    ensures forall y :: y in r <==> y == x || y in s
  {
    if s == [] then [x]
    else if x == s[0] then s
    else if StrLess(x, s[0]) then
      assert forall j :: 0 < j < |s| ==> StrLess(x, s[j]) by {
        forall j | 0 < j < |s| ensures StrLess(x, s[j]) {
          StrLessTransitive(x, s[0], s[j]);
        }
      }
      [x] + s
    else
      StrLessTotal(x, s[0]);
      var rest := Insert(x, s[1..]);
      assert forall j :: 0 <= j < |rest| ==> StrLess(s[0], rest[j]) by {
        forall j | 0 <= j < |rest| ensures StrLess(s[0], rest[j]) {
          assert rest[j] in rest;
        }
      }
      [s[0]] + rest
  }

  /** `sorted(names)` over distinct names: the same names, ascending. */
  function SortStrings(s: seq<string>): (r: seq<string>)
    ensures StrictlySorted(r)
    ensures forall y :: y in r <==> y in s
  {
    if s == [] then [] else Insert(s[|s| - 1], SortStrings(s[..|s| - 1]))
  }

  /** Two sorted lists with the same elements start with the same one. */
  lemma SameHead(a: seq<string>, b: seq<string>)
    requires StrictlySorted(a) && StrictlySorted(b)
    requires forall y :: y in a <==> y in b
    requires a != []
    ensures b != [] && a[0] == b[0]
  {
    assert a[0] in b;
    var j :| 0 <= j < |b| && b[j] == a[0];
    assert b[0] in a;
    var k :| 0 <= k < |a| && a[k] == b[0];
    if j > 0 && k > 0 {
      StrLessAsymmetric(a[0], b[0]);
    }
  }

  /** A strictly sorted list is determined by its elements: sorting the
      same names any other way gives the same list. */
  lemma {:induction false} StrictlySortedUnique(a: seq<string>, b: seq<string>)
    requires StrictlySorted(a) && StrictlySorted(b)
    requires forall y :: y in a <==> y in b
    ensures a == b
  {
    if a != [] {
      SameHead(a, b);
      StrLessIrreflexive(a[0]);
      forall y ensures y in a[1..] <==> y in b[1..] {
        if y in a[1..] {
          var j :| 1 <= j < |a| && a[j] == y;
          assert y in b && y != b[0];
        }
        if y in b[1..] {
          var j :| 1 <= j < |b| && b[j] == y;
          assert y in a && y != a[0];
        }
      }
      StrictlySortedUnique(a[1..], b[1..]);
      assert a == [a[0]] + a[1..] && b == [b[0]] + b[1..];
    } else if b != [] {
      SameHead(b, a);
    }
  }

  // ---------------------------------------------------------------------
  // Counts

  /** A value paired with how often it occurs. */
  type Tally = (Value, nat)

  /** From the most frequent down. */
  predicate Descending(s: seq<Tally>)
  {
    forall i, j :: 0 <= i < j < |s| ==> s[i].1 >= s[j].1
  }

  /** `p` placed after every entry at least as frequent (so equal counts keep
      their order). */
  function InsertByCount(p: Tally, s: seq<Tally>): (r: seq<Tally>)
    requires Descending(s)
    ensures Descending(r)
    ensures |r| == |s| + 1
    ensures forall q :: q in r <==> q == p || q in s
  {
    if s == [] then [p]
    else if s[0].1 < p.1 then [p] + s
    else
      var rest := InsertByCount(p, s[1..]);
      assert forall j :: 0 <= j < |rest| ==> s[0].1 >= rest[j].1 by {
        forall j | 0 <= j < |rest| ensures s[0].1 >= rest[j].1 {
          assert rest[j] in rest;
        }
      }
      [s[0]] + rest
  }

  /** Inserting an entry not yet present keeps the entries distinct. */
  lemma {:induction false} InsertByCountDistinct(p: Tally, s: seq<Tally>)
    requires Descending(s) && NoDuplicates(s) && p !in s
    ensures NoDuplicates(InsertByCount(p, s))
  {
    if s != [] && s[0].1 >= p.1 {
      forall k | 0 <= k < |s| - 1 ensures s[1..][k] != s[0] {
        assert s[1..][k] == s[k + 1];
      }
      InsertByCountDistinct(p, s[1..]);
      var rest := InsertByCount(p, s[1..]);
      assert s[0] in s;
      assert s[0] !in rest;
      var r: seq<Tally> := [s[0]] + rest;
      assert InsertByCount(p, s) == r;
      forall i, j | 0 <= i < j < |r| ensures r[i] != r[j] {
        assert r[j] == rest[j - 1];
        if i > 0 {
          assert r[i] == rest[i - 1];
        }
      }
    }
  }

  /** The entries reordered from the most frequent down. */
  function SortByCount(s: seq<Tally>): (r: seq<Tally>)
    ensures Descending(r)
    ensures |r| == |s|
    ensures forall q :: q in r <==> q in s
    ensures NoDuplicates(s) ==> NoDuplicates(r)
  {
    if s == [] then []
    else
      var init := s[..|s| - 1];
      assert NoDuplicates(s) ==> s[|s| - 1] !in init;
      assert s == init + [s[|s| - 1]];
      assert NoDuplicates(s) ==> NoDuplicates(InsertByCount(s[|s| - 1], SortByCount(init))) by {
        if NoDuplicates(s) {
          InsertByCountDistinct(s[|s| - 1], SortByCount(init));
        }
      }
      InsertByCount(s[|s| - 1], SortByCount(init))
  }
}

=== FILE: pipeline.dfy ===
/** The table-preparation run, written once for its three copies: drop the
    surrogate identifier from the feedback, cast both key columns to
    integers, join, and fill the missing scores with their mean. The copies
    differ only in whether the fill first checks that a bare
    `satisfaction_score` column exists. */
module Pipeline {
  import opened Seqs
  import opened Tables
  import Normalize
  import KeyCoercion
  import Join
  import Impute

  /** How the score fill is reached: after checking that the merged table has
      a bare score column (the standalone preparation script), or by
      selecting that column unconditionally (the merge script and the
      dashboard's copy of it). */
  datatype Guard = Checked | Unchecked

  /** The merged table a run produces, or the error that ends it. */
  function Prepare(profiles: Table, feedback: Table, guard: Guard): (r: Result<Table>)
    ensures Merged(profiles, feedback).Failure? ==> r == Merged(profiles, feedback)
    ensures r.Success? ==> Merged(profiles, feedback).Success?
    ensures r.Success? ==>
      && r.value.columns == Merged(profiles, feedback).value.columns
      && |r.value.rows| == |Merged(profiles, feedback).value.rows|
    ensures r.Failure? && Merged(profiles, feedback).Success? ==>
      || (guard == Unchecked && r.error == MissingColumn(Score))
      || r.error == NonNumericScore
  {
    var fb := Normalize.DropIfPresent(feedback, Surrogate);
    var p :- KeyCoercion.CoerceKey(profiles);
    var f :- KeyCoercion.CoerceKey(fb);
    var m :- Join.Merge(p, f);
    assert Merged(profiles, feedback) == Success(m);
    if guard == Checked && Score !in m.columns then Success(m)
    else
      assert Score in m.columns && Impute.Impute(m).Failure? ==> Impute.Impute(m).error == NonNumericScore;
      assert Score !in m.columns ==> guard == Unchecked && Impute.Impute(m) == Failure(MissingColumn(Score));
      Impute.Impute(m)
  }

  /** The join's result before the score fill. */
  function Merged(profiles: Table, feedback: Table): (r: Result<Table>)
    ensures r.Failure? ==>
      r.error == MissingColumn(Key) || r.error.KeyNotInteger? || r.error == DuplicateColumns
    ensures r.Success? ==> Key in profiles.columns && Key in feedback.columns && Key in r.value.columns
  {
    var p :- KeyCoercion.CoerceKey(profiles);
    var f :- KeyCoercion.CoerceKey(Normalize.DropIfPresent(feedback, Surrogate));
    assert Join.Merge(p, f).Success? ==> Key in Join.Merge(p, f).value.columns by {
      if Join.Merge(p, f).Success? {
        Join.SuffixPolicy(p, f, Key);
      }
    }
    Join.Merge(p, f)
  }

  /** A run fails before joining exactly when a key column is missing or one
      of its cells does not cast; the profiles are cast first. */
  lemma CastFailureAborts(profiles: Table, feedback: Table, guard: Guard)
    requires KeyCoercion.CoerceKey(profiles).Failure?
      || KeyCoercion.CoerceKey(Normalize.DropIfPresent(feedback, Surrogate)).Failure?
    ensures Prepare(profiles, feedback, guard).Failure?
    ensures KeyCoercion.CoerceKey(profiles).Failure? ==>
      Prepare(profiles, feedback, guard).error == KeyCoercion.CoerceKey(profiles).error
    ensures var e := Prepare(profiles, feedback, guard).error;
      e == MissingColumn(Key) || e.KeyNotInteger?
  {
  }

  /** The copies agree except on a merged table without a bare score
      column: there the checked copy returns the join as it is and the
      unchecked copies fail selecting the column. */
  lemma GuardDifference(profiles: Table, feedback: Table)
    ensures var m := Merged(profiles, feedback);
      if m.Success? && Score !in m.value.columns then
        && Prepare(profiles, feedback, Checked) == m
        && Prepare(profiles, feedback, Unchecked) == Failure(MissingColumn(Score))
      else
        Prepare(profiles, feedback, Checked) == Prepare(profiles, feedback, Unchecked)
  {
  }

  /** The merged table of a successful run is well formed, keeps the key, and
      its keys are those of the join: each row's key is shared by a cast
      profile row and a cast feedback row, and each key occurs (profile rows
      with it) times (feedback rows with it) times. */
  lemma RunJoinsOnKey(profiles: Table, feedback: Table, guard: Guard, k: Cell)
    requires Valid(profiles) && Valid(feedback)
    requires Prepare(profiles, feedback, guard).Success?
    ensures var out := Prepare(profiles, feedback, guard).value;
      var p := KeyCoercion.CoerceKey(profiles).value;
      var f := KeyCoercion.CoerceKey(Normalize.DropIfPresent(feedback, Surrogate)).value;
      && Valid(out)
      && Count(out.columns, Key) == 1
      && KeyCount(out.rows, k) == KeyCount(p.rows, k) * KeyCount(f.rows, k)
      && (forall i :: 0 <= i < |out.rows| ==>
            Get(out.rows[i], Key) in Column(p.rows, Key) && Get(out.rows[i], Key) in Column(f.rows, Key))
  {
    var p := KeyCoercion.CoerceKey(profiles).value;
    var f := KeyCoercion.CoerceKey(Normalize.DropIfPresent(feedback, Surrogate)).value;
    var m := Join.Merge(p, f).value;
    var out := Prepare(profiles, feedback, guard).value;
    assert Merged(profiles, feedback) == Join.Merge(p, f);
    Join.MergeValid(p, f);
    Join.SuffixPolicy(p, f, Key);
    Join.JoinCardinality(p, f, k);
    FillKeepsKeys(profiles, feedback, guard);
    JoinedKeysShared(p, f);
  }

  /** The score fill changes neither the join's columns nor its keys, and
      keeps it well formed. */
  lemma FillKeepsKeys(profiles: Table, feedback: Table, guard: Guard)
    requires Prepare(profiles, feedback, guard).Success?
    ensures var out := Prepare(profiles, feedback, guard).value;
      var m := Merged(profiles, feedback).value;
      && out.columns == m.columns
      && Column(out.rows, Key) == Column(m.rows, Key)
      && (Valid(m) ==> Valid(out))
  {
  }

  /** Every key of the join is a key of both of its inputs. */
  lemma JoinedKeysShared(p: Table, f: Table)
    requires Join.Merge(p, f).Success?
    ensures var m := Join.Merge(p, f).value;
      forall i :: 0 <= i < |m.rows| ==>
        Get(m.rows[i], Key) in Column(p.rows, Key) && Get(m.rows[i], Key) in Column(f.rows, Key)
  {
    var m := Join.Merge(p, f).value;
    forall i | 0 <= i < |m.rows|
      ensures Get(m.rows[i], Key) in Column(p.rows, Key) && Get(m.rows[i], Key) in Column(f.rows, Key)
    {
      assert m.rows[i] in m.rows;
      Join.JoinMembership(p, f, m.rows[i]);
    }
  }

  /** The run's table has the surrogate identifier exactly when the profiles
      have it: only the feedback is stripped of it. */
  lemma SurrogateFollowsProfiles(profiles: Table, feedback: Table, guard: Guard)
    requires Prepare(profiles, feedback, guard).Success?
    ensures Surrogate in Prepare(profiles, feedback, guard).value.columns <==> Surrogate in profiles.columns
  {
    SurrogateFromProfiles(profiles, feedback);
  }

  /** The join has an `_id` column exactly when the profiles have one: the
      feedback's is dropped first, so the profiles' is never renamed. */
  lemma SurrogateFromProfiles(profiles: Table, feedback: Table)
    requires Merged(profiles, feedback).Success?
    ensures Surrogate in Merged(profiles, feedback).value.columns <==> Surrogate in profiles.columns
  {
    var p := KeyCoercion.CoerceKey(profiles).value;
    var f := KeyCoercion.CoerceKey(Normalize.DropIfPresent(feedback, Surrogate)).value;
    assert Merged(profiles, feedback).value.columns == Join.Names(Join.Plan(p.columns, f.columns));
    if Surrogate in Merged(profiles, feedback).value.columns {
      Join.ShortNameFromInput(p.columns, f.columns, Surrogate);
    }
    if Surrogate in profiles.columns {
      Join.SuffixPolicy(p, f, Surrogate);
    }
  }

  /** After a run that reached the fill, present scores are as they were in
      the join, and if any score was present none is missing and all the
      filled ones carry the same value. */
  lemma RunFillsScores(profiles: Table, feedback: Table, guard: Guard)
    requires Prepare(profiles, feedback, guard).Success?
    requires Score in Merged(profiles, feedback).value.columns
    ensures var m := Merged(profiles, feedback).value;
      var out := Prepare(profiles, feedback, guard).value;
      && |out.rows| == |m.rows|
      && (forall i :: 0 <= i < |m.rows| && Get(m.rows[i], Score).Some? ==>
            Get(out.rows[i], Score) == Get(m.rows[i], Score))
      && ((exists i :: 0 <= i < |m.rows| && Get(m.rows[i], Score).Some?) ==>
            && (forall i :: 0 <= i < |m.rows| ==> Get(out.rows[i], Score).Some?)
            && (forall i, j ::
                  (0 <= i < |m.rows| && 0 <= j < |m.rows|
                   && Get(m.rows[i], Score).None? && Get(m.rows[j], Score).None?) ==>
                  Get(out.rows[i], Score) == Get(out.rows[j], Score)))
  {
    var m := Merged(profiles, feedback).value;
    if exists i :: 0 <= i < |m.rows| && Get(m.rows[i], Score).Some? {
      Impute.NoMissingAfterImpute(m);
    }
  }

  /** Past the join, a run is the fill of the join, unless it is the
      checked copy and the join has no bare score column. */
  lemma RunIsFillOfJoin(profiles: Table, feedback: Table, guard: Guard)
    requires Merged(profiles, feedback).Success?
    requires guard == Unchecked || Score in Merged(profiles, feedback).value.columns
    ensures Prepare(profiles, feedback, guard) == Impute.Impute(Merged(profiles, feedback).value)
  {
  }

  // ---------------------------------------------------------------------
  // The scripts, statement by statement

  /** A DataFrame held by one of the scripts; assigning to one of its
      columns replaces that column's cells in place. */
  class Frame {
    var columns: seq<ColName>
    var rows: seq<Row>

    constructor (t: Table)
      ensures columns == t.columns && rows == t.rows
    {
      columns := t.columns;
      rows := t.rows;
    }

    function Contents(): Table
      reads this
    {
      Table(columns, rows)
    }

    /** `df['patient_id'] = df['patient_id'].astype(int)`: on success every
        key is its integer and nothing else changes; on failure the frame is
        untouched. */
    method CastKey() returns (err: Option<Error>)
      modifies this
      ensures err.None? <==> KeyCoercion.CoerceKey(old(Contents())).Success?
      ensures err.None? ==> Contents() == KeyCoercion.CoerceKey(old(Contents())).value
      ensures err.None? ==> columns == old(columns) && |rows| == |old(rows)|
      ensures err.Some? ==> err.value == KeyCoercion.CoerceKey(old(Contents())).error && Contents() == old(Contents())
    {
      var r := KeyCoercion.CoerceKey(Contents());
      if r.Success? {
        rows := r.value.rows;
        err := None;
      } else {
        err := Some(r.error);
      }
    }

    /** `df['satisfaction_score'] = df['satisfaction_score'].fillna(df['satisfaction_score'].mean())`:
        on success present scores and other columns are kept and every gap
        gets the mean; on failure the frame is untouched. */
    method FillScore() returns (err: Option<Error>)
      modifies this
      ensures err.None? <==> Impute.Impute(old(Contents())).Success?
      ensures err.None? ==> Contents() == Impute.Impute(old(Contents())).value
      ensures err.None? ==> columns == old(columns) && |rows| == |old(rows)|
      ensures err.Some? ==> err.value == Impute.Impute(old(Contents())).error && Contents() == old(Contents())
    {
      var r := Impute.Impute(Contents());
      if r.Success? {
        rows := r.value.rows;
        err := None;
      } else {
        err := Some(r.error);
      }
    }
  }

  /** The merge script (and the dashboard's copy of it), from the feedback
      read to the merged table it stores. */
  method MergeAccessData(profiles: Table, feedback: Table) returns (r: Result<Table>)
    ensures r == Prepare(profiles, feedback, Unchecked)
  {
    var dfProfiles := new Frame(profiles);
    var dfFeedback := new Frame(feedback);
    if Surrogate in dfFeedback.columns {
      dfFeedback := new Frame(Normalize.DropIfPresent(feedback, Surrogate));
    }
    var err := dfProfiles.CastKey();
    if err.Some? {
      return Failure(err.value);
    }
    err := dfFeedback.CastKey();
    if err.Some? {
      return Failure(err.value);
    }
    var merged :- Join.Merge(dfProfiles.Contents(), dfFeedback.Contents());
    var mergedDf := new Frame(merged);
    err := mergedDf.FillScore();
    if err.Some? {
      return Failure(err.value);
    }
    return Success(mergedDf.Contents());
  }

  /** The standalone preparation script: the same steps, with the fill
      skipped when the merged table has no bare score column. */
  method PrepareData(profiles: Table, feedback: Table) returns (r: Result<Table>)
    ensures r == Prepare(profiles, feedback, Checked)
    ensures r.Success? && Score !in r.value.columns ==> r == Merged(profiles, feedback)
  {
    var dfProfiles := new Frame(profiles);
    var dfFeedback := new Frame(feedback);
    if Surrogate in dfFeedback.columns {
      dfFeedback := new Frame(Normalize.DropIfPresent(feedback, Surrogate));
    }
    var err := dfProfiles.CastKey();
    if err.Some? {
      return Failure(err.value);
    }
    err := dfFeedback.CastKey();
    if err.Some? {
      return Failure(err.value);
    }
    var merged :- Join.Merge(dfProfiles.Contents(), dfFeedback.Contents());
    var mergedDf := new Frame(merged);
    if Score in mergedDf.columns {
      err := mergedDf.FillScore();
      if err.Some? {
        return Failure(err.value);
      }
    }
    return Success(mergedDf.Contents());
  }
}

=== FILE: sample_runs.dfy ===
/** Two small runs worked through: a score column on both sides, and a
    missing score among two matched patients. */
module SampleRuns {
  import opened Seqs
  import opened Tables
  import Normalize
  import KeyCoercion
  import Join
  import Impute
  import opened Pipeline

  // ---------------------------------------------------------------------
  // Both inputs carry a score

  /** A profile and a feedback record that both carry a score. */
  const CollidingProfiles: Table := Table([Key, Score], [map[Key := Some(Int(1)), Score := Some(Int(3))]])
  const CollidingFeedback: Table := Table([Key, Score], [map[Key := Some(Int(1)), Score := None]])

  /** Their join plan: the score collides and is suffixed on both sides. */
  function CollidingPlan(): (plan: seq<Join.OutColumn>)
    ensures plan == Join.Plan(CollidingProfiles.columns, CollidingFeedback.columns)
    ensures Join.Names(plan) == [Key, Score + ProfileSuffix, Score + FeedbackSuffix]
  {
    var left, right := CollidingProfiles.columns, CollidingFeedback.columns;
    assert Normalize.Without([Key, Score], Key) == [Score] by {
      assert Normalize.Without([Key, Score], Key) == Normalize.Without([Score], Key);
      assert Normalize.Without([Score], Key) == [Score] + Normalize.Without([], Key);
    }
    assert Join.Collides(left, right, Score);
    assert !Join.Collides(left, right, Key);
    [Join.OutColumn(Key, Join.Profile, Key),
     Join.OutColumn(Score + ProfileSuffix, Join.Profile, Score),
     Join.OutColumn(Score + FeedbackSuffix, Join.Feedback, Score)]
  }

  lemma CollidingMerge()
    ensures Merged(CollidingProfiles, CollidingFeedback).Success?
    ensures Merged(CollidingProfiles, CollidingFeedback).value.columns
      == [Key, Score + ProfileSuffix, Score + FeedbackSuffix]
  {
    assert Normalize.DropIfPresent(CollidingFeedback, Surrogate) == CollidingFeedback;
    KeyCoercion.IntegerKeysUnchanged(CollidingProfiles);
    KeyCoercion.IntegerKeysUnchanged(CollidingFeedback);
    var names := Join.Names(CollidingPlan());
    assert NoDuplicates(names) by {
      assert |names[0]| < |names[1]| && |names[1]| < |names[2]|;
    }
  }

  /** When both inputs carry a score the join suffixes both, so the checked
      copy stores the join unfilled and the unchecked copies fail. */
  lemma ScoreCollisionExample()
    ensures Prepare(CollidingProfiles, CollidingFeedback, Unchecked) == Failure(MissingColumn(Score))
    ensures Prepare(CollidingProfiles, CollidingFeedback, Checked) == Merged(CollidingProfiles, CollidingFeedback)
    ensures Prepare(CollidingProfiles, CollidingFeedback, Checked).Success?
  {
    CollidingMerge();
    var names := Merged(CollidingProfiles, CollidingFeedback).value.columns;
    assert Score !in names by {
      assert |names[0]| != |Score| && |names[1]| != |Score| && |names[2]| != |Score|;
    }
    GuardDifference(CollidingProfiles, CollidingFeedback);
  }

  // ---------------------------------------------------------------------
  // Two matched patients, one score missing

  /** Two profiles (countries only) and three feedback records, one of
      them for a patient with no profile and one without a score. */
  const TwoProfiles: Table := Table([Key, "country"], [
    map[Key := Some(Int(1)), "country" := Some(Str("FR"))],
    map[Key := Some(Int(2)), "country" := Some(Str("DE"))]])
  const ThreeFeedback: Table := Table([Key, Score], [
    map[Key := Some(Int(1)), Score := Some(Int(4))],
    map[Key := Some(Int(2)), Score := None],
    map[Key := Some(Int(3)), Score := Some(Int(5))]])

  /** Their join: patients 1 and 2 in profile order, patient 3 dropped,
      patient 2 still without a score. */
  const TwoJoined: Table := Table([Key, "country", Score], [
    map[Key := Some(Int(1)), "country" := Some(Str("FR")), Score := Some(Int(4))],
    map[Key := Some(Int(2)), "country" := Some(Str("DE")), Score := None]])

  /** The join with patient 2's score filled with 4, the mean of the one
      score present. */
  const TwoFilled: Table := Table([Key, "country", Score], [
    map[Key := Some(Int(1)), "country" := Some(Str("FR")), Score := Some(Int(4))],
    map[Key := Some(Int(2)), "country" := Some(Str("DE")), Score := Some(Real(4.0))]])

  /** The example's join plan: no column collides. */
  function TwoPlan(): (plan: seq<Join.OutColumn>)
    ensures plan == Join.Plan(TwoProfiles.columns, ThreeFeedback.columns)
    ensures Join.Names(plan) == TwoJoined.columns
    ensures NoDuplicates(Join.Names(plan))
  {
    var left, right := TwoProfiles.columns, ThreeFeedback.columns;
    assert Normalize.Without([Key, Score], Key) == [Score] by {
      assert Normalize.Without([Key, Score], Key) == Normalize.Without([Score], Key);
      assert Normalize.Without([Score], Key) == [Score] + Normalize.Without([], Key);
    }
    assert !Join.Collides(left, right, Key);
    assert !Join.Collides(left, right, "country");
    assert !Join.Collides(left, right, Score);
    var plan := [Join.OutColumn(Key, Join.Profile, Key),
                 Join.OutColumn("country", Join.Profile, "country"),
                 Join.OutColumn(Score, Join.Feedback, Score)];
    assert Join.Names(plan) == TwoJoined.columns;
    plan
  }

  /** The example's keys cast to themselves. */
  lemma TwoPatientCast()
    ensures KeyCoercion.CoerceKey(TwoProfiles) == Success(TwoProfiles)
    ensures KeyCoercion.CoerceKey(ThreeFeedback) == Success(ThreeFeedback)
    ensures Normalize.DropIfPresent(ThreeFeedback, Surrogate) == ThreeFeedback
  {
    KeyCoercion.IntegerKeysUnchanged(TwoProfiles);
    KeyCoercion.IntegerKeysUnchanged(ThreeFeedback);
  }

  /** The example join's column names as a set. */
  lemma TwoColumnSet()
    ensures ColumnSet(TwoJoined.columns) == {Key, "country", Score}
  {
  }

  /** Patient 1's profile joined with patient 1's feedback. */
  lemma FirstPatientRow()
    ensures Join.JoinRow(TwoPlan(), TwoProfiles.rows[0], ThreeFeedback.rows[0]) == TwoJoined.rows[0]
  {
    var plan := TwoPlan();
    TwoColumnSet();
    var row := Join.JoinRow(plan, TwoProfiles.rows[0], ThreeFeedback.rows[0]);
    assert row[Key] == Some(Int(1)) && row["country"] == Some(Str("FR")) && row[Score] == Some(Int(4)) by {
      assert plan[0].name == Key && plan[1].name == "country" && plan[2].name == Score;
    }
  }

  /** Patient 2's profile joined with patient 2's feedback. */
  lemma SecondPatientRow()
    ensures Join.JoinRow(TwoPlan(), TwoProfiles.rows[1], ThreeFeedback.rows[1]) == TwoJoined.rows[1]
  {
    var plan := TwoPlan();
    TwoColumnSet();
    var row := Join.JoinRow(plan, TwoProfiles.rows[1], ThreeFeedback.rows[1]);
    assert row[Key] == Some(Int(2)) && row["country"] == Some(Str("DE")) && row[Score] == None by {
      assert plan[0].name == Key && plan[1].name == "country" && plan[2].name == Score;
    }
  }

  /** Each example profile meets exactly the feedback record at its own position. */
  lemma TwoPatientMatches(i: nat)
    requires i < 2
    ensures Join.Matches(TwoPlan(), TwoProfiles.rows[i], ThreeFeedback.rows) == [TwoJoined.rows[i]]
  {
    FirstPatientRow();
    SecondPatientRow();
    var plan, p, f := TwoPlan(), TwoProfiles.rows[i], ThreeFeedback.rows;
    assert f[1..][1..][1..] == [];
    assert Join.Matches(plan, p, f[1..][1..]) == [] + Join.Matches(plan, p, f[1..][1..][1..]);
  }

  lemma TwoPatientRows()
    ensures Join.JoinRows(TwoPlan(), TwoProfiles.rows, ThreeFeedback.rows) == TwoJoined.rows
  {
    TwoPatientMatches(0);
    TwoPatientMatches(1);
    var plan, p, f := TwoPlan(), TwoProfiles.rows, ThreeFeedback.rows;
    assert p[1..][1..] == [];
    assert Join.JoinRows(plan, p[1..], f) == [TwoJoined.rows[1]] + Join.JoinRows(plan, p[1..][1..], f);
  }

  lemma TwoPatientJoin()
    ensures Merged(TwoProfiles, ThreeFeedback) == Success(TwoJoined)
  {
    TwoPatientCast();
    TwoPatientRows();
  }

  lemma TwoPatientFill()
    ensures Impute.Impute(TwoJoined) == Success(TwoFilled)
  {
    var cells := Column(TwoJoined.rows, Score);
    assert cells == [Some(Int(4)), None];
    assert Present(cells) == [Int(4)];
    assert Impute.AllNumbers(cells);
    assert Impute.Sum([Int(4)]) == 4.0 by {
      assert [Int(4)][1..] == [];
    }
    assert Impute.Mean(cells) == Success(Some(4.0));
    var filled := Impute.FillRows(TwoJoined.rows, 4.0);
    assert filled[0] == TwoFilled.rows[0];
    assert filled[1] == TwoFilled.rows[1];
    assert filled == TwoFilled.rows;
  }

  /** The whole run on the example: two rows, patient 3 dropped, patient 2's
      missing score filled with 4; both copies of the run agree here. */
  lemma TwoPatientRun()
    ensures Prepare(TwoProfiles, ThreeFeedback, Unchecked) == Success(TwoFilled)
    ensures Prepare(TwoProfiles, ThreeFeedback, Checked) == Success(TwoFilled)
  {
    TwoPatientJoin();
    TwoPatientFill();
    RunIsFillOfJoin(TwoProfiles, ThreeFeedback, Unchecked);
    RunIsFillOfJoin(TwoProfiles, ThreeFeedback, Checked);
  }
}

=== FILE: seqs.dfy ===
/** Generic facts about sequences used by the table operations: duplicates,
    occurrence counts, first-occurrence de-duplication and subsequences. */
module Seqs {

  /** No element occurs twice. */
  predicate NoDuplicates<T(==)>(s: seq<T>)
  {
    forall i, j :: 0 <= i < j < |s| ==> s[i] != s[j]
  }

  /** Number of occurrences of `x` in `s`. */
  function Count<T(==)>(s: seq<T>, x: T): nat
  {
    if s == [] then 0 else (if s[0] == x then 1 else 0) + Count(s[1..], x)
  }

  lemma {:induction false} CountAppend<T>(a: seq<T>, b: seq<T>, x: T)
    ensures Count(a + b, x) == Count(a, x) + Count(b, x)
  {
    if a == [] {
      assert a + b == b;
    } else {
      assert (a + b)[1..] == a[1..] + b;
      CountAppend(a[1..], b, x);
    }
  }

  lemma {:induction false} CountBound<T>(s: seq<T>, x: T)
    ensures Count(s, x) <= |s|
    ensures Count(s, x) > 0 <==> x in s
  {
    if s != [] {
      CountBound(s[1..], x);
      assert s == [s[0]] + s[1..];
    }
  }

  /** A list of copies of `x` counts `x` once per element. */
  lemma {:induction false} CountAll<T>(s: seq<T>, x: T)
    requires forall i :: 0 <= i < |s| ==> s[i] == x
    ensures Count(s, x) == |s|
  {
    if s != [] {
      CountAll(s[1..], x);
    }
  }

  /** In a list without repeats every element is counted at most once. */
  lemma {:induction false} CountUnique<T>(s: seq<T>, x: T)
    requires NoDuplicates(s)
    ensures Count(s, x) <= 1
  {
    if s != [] {
      forall k | 0 <= k < |s| - 1 ensures s[1..][k] != s[0] {
        assert s[1..][k] == s[k + 1];
      }
      CountUnique(s[1..], x);
      CountBound(s[1..], x);
    }
  }

  /** Distinct elements of `s` in order of first occurrence. */
  function Unique<T(==)>(s: seq<T>): (u: seq<T>)
    ensures NoDuplicates(u)
    ensures forall i :: 0 <= i < |u| ==> u[i] in s
    ensures forall i :: 0 <= i < |s| ==> s[i] in u
    ensures |u| <= |s|
    decreases |s|
  {
    if s == [] then []
    else
      var u := Unique(s[..|s| - 1]);
      assert s == s[..|s| - 1] + [s[|s| - 1]];
      if s[|s| - 1] in u then u else u + [s[|s| - 1]]
  }

  /** `a` is obtained from `b` by deleting elements, keeping relative order. */
  predicate IsSubsequence<T(==)>(a: seq<T>, b: seq<T>)
    decreases |b|
  {
    if a == [] then true
    else if b == [] then false
    else (a[0] == b[0] && IsSubsequence(a[1..], b[1..])) || IsSubsequence(a, b[1..])
  }

  lemma {:induction false} SubsequenceReflexive<T>(s: seq<T>)
    ensures IsSubsequence(s, s)
  {
    if s != [] {
      SubsequenceReflexive(s[1..]);
    }
  }
}

=== FILE: tables.dfy ===
/** The in-memory tables the pipeline and the dashboard work on: a list of
    column names and a sequence of rows, each row mapping every column name to
    a cell that is either a value or missing. */
module Tables {
  import opened Seqs

  datatype Option<+T> = None | Some(value: T)

  /** A cell value as read from the stores: an integer, a number with a
      fractional part, or text. */
  datatype Value = Int(i: int) | Real(r: real) | Str(s: string)

  type ColName = string

  /** A cell; `None` is a missing value. */
  type Cell = Option<Value>

  type Row = map<ColName, Cell>

  datatype Table = Table(columns: seq<ColName>, rows: seq<Row>)

  /** The ways a run fails. */
  datatype Error =
    | MissingColumn(name: ColName)       // selecting a column that is not there
    | KeyNotInteger(cell: Cell)          // an identifier the integer cast rejects
    | DuplicateColumns                   // the join's suffixes produce a repeated name
    | NonNumericScore                    // the mean of a column holding text
    | UnorderableCountries               // sorting country cells that are not all text

  datatype Result<+T> = Success(value: T) | Failure(error: Error) {
    predicate IsFailure() { Failure? }
    function PropagateFailure<U>(): Result<U> requires Failure? { Failure(error) }
    function Extract(): T requires Success? { value }
  }

  /** The join key shared by profiles and feedback. */
  const Key: ColName := "patient_id"
  /** The document store's surrogate identifier. */
  const Surrogate: ColName := "_id"
  /** The score that is imputed. */
  const Score: ColName := "satisfaction_score"
  const ProfileSuffix: string := "_profile"
  const FeedbackSuffix: string := "_feedback"

  function ColumnSet(columns: seq<ColName>): set<ColName>
  {
    set c | c in columns
  }

  /** A well-formed table: column names are unique and every row has exactly
      the table's columns. */
  predicate Valid(t: Table)
  {
    && NoDuplicates(t.columns)
    && forall r :: r in t.rows ==> r.Keys == ColumnSet(t.columns)
  }

  /** The cell of row `r` under column `c`; a column the row lacks reads as missing. */
  function Get(r: Row, c: ColName): Cell
  {
    if c in r then r[c] else None
  }

  /** The cells of column `c`, one per row, in row order. */
  function Column(rows: seq<Row>, c: ColName): (cells: seq<Cell>)
    ensures |cells| == |rows|
    ensures forall i :: 0 <= i < |rows| ==> cells[i] == Get(rows[i], c)
  {
    seq(|rows|, i requires 0 <= i < |rows| => Get(rows[i], c))
  }

  lemma ColumnAppend(a: seq<Row>, b: seq<Row>, c: ColName)
    ensures Column(a + b, c) == Column(a, c) + Column(b, c)
  {
  }

  /** The present values among `cells`, in order (what `dropna` keeps). */
  function Present(cells: seq<Cell>): (vs: seq<Value>)
    ensures |vs| <= |cells|
  {
    if cells == [] then []
    else (if cells[0].Some? then [cells[0].value] else []) + Present(cells[1..])
  }

  /** A value is among the present values exactly when some cell holds it. */
  lemma {:induction false} PresentMembers(cells: seq<Cell>, v: Value)
    ensures v in Present(cells) <==> exists i :: 0 <= i < |cells| && cells[i] == Some(v)
  {
    if cells != [] {
      PresentMembers(cells[1..], v);
      if exists i :: 0 <= i < |cells[1..]| && cells[1..][i] == Some(v) {
        var i :| 0 <= i < |cells[1..]| && cells[1..][i] == Some(v);
        assert cells[i + 1] == Some(v);
      }
      if exists i :: 0 <= i < |cells| && cells[i] == Some(v) {
        var i :| 0 <= i < |cells| && cells[i] == Some(v);
        if i > 0 {
          assert cells[1..][i - 1] == Some(v);
        }
      }
    }
  }

  /** No value is present exactly when every cell is missing. */
  lemma {:induction false} PresentEmpty(cells: seq<Cell>)
    ensures Present(cells) == [] <==> forall i :: 0 <= i < |cells| ==> cells[i].None?
  {
    if cells != [] {
      PresentEmpty(cells[1..]);
      assert forall i :: 1 <= i < |cells| ==> cells[i] == cells[1..][i - 1];
    }
  }

  /** Number of rows whose key cell is `k`. */
  function KeyCount(rows: seq<Row>, k: Cell): nat
  {
    Count(Column(rows, Key), k)
  }

  /** Number of distinct present values in a column (`nunique`). */
  function NUnique(cells: seq<Cell>): (n: nat)
    ensures n <= |cells|
  {
    |Unique(Present(cells))|
  }
}
